=== FILE: README.md ===
# Student directory core, in Dafny

A model of the logic inside a small React student directory ("alphon") of a
pre-military academy. The app loads the roster from a Google Sheet. It lists
students with a search box and class chips, shows a birthday badge and a
"birthdays this month" page dated in the Hebrew calendar, and opens a contact
card with a WhatsApp link. What is modelled is the pure string and list logic
beneath those views:

- `StudentList`: the Hebrew day and year numerals and the header's date line.
  It also covers the month-name cleanup, the class chips, the search and class
  filter, and the birthday badge.
- `BirthdayPage`: the page's own copies of the numeral helpers, the filtered
  and sorted birthday listing, and the day-and-month line on each card.
- `StudentDetail`: finding the student named in the route, and turning a stored
  phone number into the number a WhatsApp link dials.
- `DataService`: turning parsed sheet rows into students. This covers the
  tolerant column lookup (`getValue`), the defaults for empty cells, id
  generation, and the filter that drops unnamed rows.

Supporting modules model the JavaScript built-ins these call:

- `JsString`: `trim`, `includes`, ASCII `toLowerCase`, `split`/`join`,
  `replace(/\D/g, '')`, the "does `parseInt` give a number" test, and the
  default `Array#sort` string order.
- `Decimal`: `Number#toString` on integers, with a reader as its inverse.
- `Seqs`: `Array#filter`, the first-insertion order of a `Set`, and a stable
  sort.
- `HebrewNumerals`: the traditional letter-value numeral. The app's literal
  tables are proved equal to it.
- `Types`: the shared `Student` record. `Wrappers`: `Option`.

The numeral helpers look days up in a 31-entry literal table and years in a
4-entry one, and fall back to the decimal string whenever the entry is missing
or empty. So day 0 shows "0" (table entry 0 is the empty string, which is
falsy), and so does any number outside the tables. The letter-value algorithm
(`HebrewNumerals.Numeral`) is not part of the app; it appears only as the
independent reference the tables are checked against.

`types.ts` declares no `birthday_hebrew` field, but both views read one and
the data service writes one. The model's `Student` has it as an optional
string.

## Model

| member | source | states |
|---|---|---|
| StudentList.DayTableIsGematria | components/StudentList.tsx:11 | each day entry 1..30 of the literal table is the traditional numeral of its index, including the 15 = 9+6 and 16 = 9+7 spellings |
| StudentList.DayGematria | components/StudentList.tsx:10-13 | every integer outside 1..30, 0 included, gives a canonical decimal string (no leading zero, no "-0") that reads back as that integer; the result is never empty and never contains a space |
| StudentList.DayGematriaFallback | components/StudentList.tsx:12 | outside 1..30 the day is printed exactly as `day.toString()` prints it |
| StudentList.DayGematriaIsNumeral | components/StudentList.tsx:10-13 | each day 1..30 is written as its traditional Hebrew numeral |
| StudentList.DayGematriaExamples | components/StudentList.tsx:11-12 | 1, 10 and 30 give א׳, י׳ and ל׳ |
| StudentList.DayGematriaIrregular | components/StudentList.tsx:11-12 | 15 and 16 give ט״ו and ט״ז, not the letter sums that would spell a divine name |
| StudentList.DayGematriaFallbackExamples | components/StudentList.tsx:10-13 | day 0 gives "0" because its table entry is empty, and day 31 gives "31" |
| StudentList.YearTableIsGematria | components/StudentList.tsx:17-22 | each table year is the minor-count traditional numeral of its key |
| StudentList.YearTableKeys | components/StudentList.tsx:17-22 | the year table holds exactly 5784..5787, none mapped to an empty string |
| StudentList.YearGematria | components/StudentList.tsx:16-24 | every year outside 5784..5787 gives a canonical decimal string reading back as that year; never empty, no space |
| StudentList.YearGematriaFallback | components/StudentList.tsx:23 | outside 5784..5787 the year is printed exactly as `year.toString()` prints it |
| StudentList.YearGematriaIsNumeral | components/StudentList.tsx:16-24 | each of 5784..5787 is written as its Hebrew numeral without the thousands |
| StudentList.YearGematriaValues | components/StudentList.tsx:16-24 | the four table years give תשפ״ד, תשפ״ה, תשפ״ו, תשפ״ז |
| StudentList.StripMonthPrefix | components/StudentList.tsx:57 | a name starting with bet loses exactly that letter; any other name is unchanged; the result is a suffix at most one shorter |
| StudentList.StripMonthPrefixInverse | components/StudentList.tsx:46 | stripping undoes prefixing bet, for every name |
| StudentList.HebrewDateLabel | components/StudentList.tsx:46-50 | for every month name, splitting the header line on spaces gives the day numeral, then the space-separated fields of the cleaned month name, then the year numeral |
| StudentList.TwoWordMonthLabel | components/StudentList.tsx:46-50 | a cleaned month name of two space-separated words gives a header line of exactly four fields: day numeral, both words, year numeral |
| StudentList.AdarIILabel | components/StudentList.tsx:46-50 | in the leap-year month "באדר ב׳" the header line splits into the day numeral, אדר, ב׳ and the year numeral |
| StudentList.Classes | components/StudentList.tsx:60-63 | the chip list starts with "all"; the rest are exactly the non-empty classes of the roster, each once, in strictly increasing code-unit order |
| StudentList.FilterStudents | components/StudentList.tsx:65-75 | the listing is a subsequence of the roster; a student appears iff it passes the search test and the class test, and as often as in the roster |
| StudentList.EmptyQueryListsEveryone | components/StudentList.tsx:67-71 | with an empty query and "all" selected the listing is the whole roster |
| StudentList.ClassChipNarrows | components/StudentList.tsx:71-73 | selecting a class gives the "all" listing restricted to that class, order kept |
| StudentList.HasBirthdayIn | components/StudentList.tsx:153 | the badge shows iff the birthday is present, non-empty and contains the month name at some position |
| BirthdayPage.DayGematria | components/BirthdayPage.tsx:8-11 | the page's copy answers exactly as the list view's for every integer |
| BirthdayPage.YearGematria | components/BirthdayPage.tsx:13-21 | the page's copy answers exactly as the list view's for every integer |
| BirthdayPage.BirthdayStudents | components/BirthdayPage.tsx:54-61 | a student is listed iff it is in the roster and its birthday is non-empty and mentions the month; the listing is a permutation of the filtered roster, ordered by the raw birthday text under the comparator |
| BirthdayPage.BirthdayStudentsStable | components/BirthdayPage.tsx:54-61 | students whose birthday texts compare as equal keep their roster order on the page |
| BirthdayPage.TextOrderIsNotDayOrder | components/BirthdayPage.tsx:58-60 | under code-unit order the 15th of Shevat (ט״ו) is listed before the 10th (י׳): the order is textual, not by day |
| BirthdayPage.DayMonth | components/BirthdayPage.tsx:97-98 | the line is a prefix of the birthday; with fewer than two fields it is the whole birthday; otherwise splitting it gives the first two fields, plus the third exactly when that field is non-empty and not numeric to parseInt, never more |
| BirthdayPage.LeadingFields | components/BirthdayPage.tsx:98 | two or three leading fields joined by spaces form a prefix of the birthday that splits back into those fields |
| StudentDetail.FindStudent | components/StudentDetail.tsx:18-19 | no result iff no student has the id; otherwise the first student with that id |
| StudentDetail.FindUnique | components/StudentDetail.tsx:18-19 | when ids are unique, the card shows exactly the student whose id is in the route |
| StudentDetail.WhatsAppNumber | components/StudentDetail.tsx:35-38 | digits only, never a leading 0; empty iff the phone has no digit; two longer than the digits when they start with 0 and as long otherwise, ending in the digits after the first |
| StudentDetail.LocalNumber | components/StudentDetail.tsx:36-38 | a local number 0… is dialled as 972… without its zero |
| StudentDetail.InternationalNumberUnchanged | components/StudentDetail.tsx:36-38 | digits that do not start with 0 are dialled unchanged |
| StudentDetail.WhatsAppNumberIdempotent | components/StudentDetail.tsx:35-38 | normalising a normalised number changes nothing |
| StudentDetail.WhatsAppUsesDigitsOnly | components/StudentDetail.tsx:35-38 | the number dialled depends only on the digits of the stored phone |
| StudentDetail.WhatsAppIgnoresSeparator | components/StudentDetail.tsx:35 | inserting a non-digit anywhere in the phone does not change the number dialled |
| DataService.Lookup | services/dataService.ts:11 | the row has no such column iff no header equals the key; otherwise the cell of a field with that header |
| DataService.FirstIndex | services/dataService.ts:13 | none iff no header passes the test; otherwise the position of the first field whose header passes, every earlier header failing |
| DataService.FindKey | services/dataService.ts:13 | none iff no header passes the test; otherwise the header of the first field that passes it |
| DataService.CellOfFirst | services/dataService.ts:13-14 | a cell iff the first passing field has a non-empty header and a non-empty cell, and then that field's cell; later passing fields are never consulted |
| DataService.ChosenCell | services/dataService.ts:10-19 | the exact cell when filled; else the cell of the first loosely matching field when that is filled; else, with a fallback title, the cell of the first field matching it when that is filled; else none |
| DataService.GetValue | services/dataService.ts:10-20 | the result is trimmed; it is the trimmed exact cell when that is non-empty, else the trimmed cell of the first loosely matching field when that field is filled, else that of the first fallback-matching field when it is filled, else ""; a non-empty result is the trimmed cell of a column selected by one of the three tests |
| DataService.GetValueIgnoresOtherColumns | services/dataService.ts:10-20 | adding columns before and after that none of the three tests selects does not change the value |
| DataService.LooseHeaderFound | services/dataService.ts:12-14 | a header differing from the key only in ASCII case or surrounding spaces yields its trimmed cell wherever it stands among unrelated columns |
| DataService.FallbackHeaderFound | services/dataService.ts:15-18 | when no header matches the key, a header equal to the fallback title up to spaces yields its trimmed cell wherever it stands among unrelated columns |
| DataService.LooseBeatsEarlierFallback | services/dataService.ts:12-18 | a filled loosely matching column wins over a filled fallback column even when the fallback column comes first |
| DataService.FirstLooseHeaderDecides | services/dataService.ts:13-14 | in a row with distinct headers and without a fallback title, when the first loosely matching column is empty a later loosely matching column is not read and the value is "" |
| DataService.BlankExactCellHidesFallback | services/dataService.ts:11 | a cell of spaces under the exact key gives "" even when another column is filled, because the exact cell is truthy |
| DataService.GenerateId | services/dataService.ts:6-8 | with a phone, the id is the phone's digits in order, each digit as often as in the phone; without one, it is "student-" followed by the canonical decimal string that reads back as the row index |
| DataService.PlaceholderIdsDistinct | services/dataService.ts:7 | rows without a phone at different positions get different ids |
| DataService.PhoneIdNeverPlaceholder | services/dataService.ts:7 | an id made from a phone never equals one made from a position |
| DataService.PhoneIdIgnoresFormatting | services/dataService.ts:7 | a phone id depends neither on the row position nor on non-digit punctuation in the number |
| DataService.ToStudent | services/dataService.ts:40-62 | name and class are trimmed and non-empty, with the placeholder name and "כללי" replacing empty cells; the image is the sheet's or the avatar URL with the encoded name; the id derives from the stored phone; the birthday is always present |
| DataService.MapRows | services/dataService.ts:40 | one complete student per row, built from that row and its position |
| DataService.LoadStudents | services/dataService.ts:64-66 | the result is a subsequence of the mapped rows, no longer than the input, and every survivor is complete and not the placeholder name |
| DataService.RowKeptIffNamed | services/dataService.ts:41-66 | a row's student survives iff its name cell is non-empty and not the placeholder text |
| DataService.BlankTestRedundant | services/dataService.ts:64-66 | the blank-name test never removes anything beyond the placeholder test, because every mapped name is already trimmed and non-empty |
| DataService.PhonelessIdsDistinct | services/dataService.ts:54 | two rows without a phone number map to students with different ids |
| JsString.Trim | services/dataService.ts:11 | `trim`'s result has no whitespace at either end and is no longer than its input |
| JsString.TrimSpec | services/dataService.ts:11 | `trim` removes exactly a whitespace prefix and suffix, and leaves nothing only of an all-whitespace string |
| JsString.Contains | components/StudentList.tsx:153 | `includes` holds iff the needle occurs at some position |
| JsString.ToLower | components/StudentList.tsx:68 | same length; ASCII capitals lowered by 32 and every other character kept |
| JsString.Split | components/BirthdayPage.tsx:97 | at least one field, no field contains the separator, joining the fields restores the string, and one field iff the separator is absent |
| JsString.SplitJoin | components/BirthdayPage.tsx:97 | splitting the join of separator-free fields gives back those fields |
| JsString.DigitsOf | components/StudentDetail.tsx:35 | only digits, in order, each digit as often as in the input; empty iff there is no digit; unchanged on all-digit input |
| JsString.DigitsOfUnique | services/dataService.ts:7 | a string of digits taken in order from the input and keeping every digit occurrence is the extracted digit string |
| JsString.DigitsOfSkipsSeparator | services/dataService.ts:7 | a non-digit anywhere in the input leaves the extracted digits unchanged |
| JsString.CodeUnitLeIsTotalPreorder | components/StudentList.tsx:62 | the default sort order on strings is total and transitive |
| JsString.CodeUnitLeAntisymmetric | components/StudentList.tsx:62 | two strings each at or before the other are equal |
| Decimal.IntToString | components/StudentList.tsx:12 | `toString` on an integer is canonical (digits without a leading zero except "0", or a minus sign before non-zero-led digits), reads back as that integer and has no space |
| Decimal.CanonicalUnique | components/StudentList.tsx:12 | any canonical string that reads as an integer is that integer's `toString` |
| Seqs.Filter | components/StudentList.tsx:66 | `filter` keeps exactly the elements passing the test, in order, with their multiplicities |
| Seqs.Distinct | components/StudentList.tsx:61 | `Array.from(new Set(...))` has the same elements, each once |
| Seqs.DistinctInOrder | components/StudentList.tsx:61 | the distinct elements come in the order of their first occurrence in the input, as a `Set` iterates them |
| Seqs.FilterUnique | components/StudentList.tsx:66 | a subsequence made only of passing elements that keeps every occurrence of them is the filtered sequence |
| Seqs.SortBy | components/BirthdayPage.tsx:58-60 | the sorted sequence is a permutation of the input, ordered by key under a total preorder |
| Seqs.SortByStable | components/BirthdayPage.tsx:58-60 | the sort is stable: within each class of equivalent keys, elements keep their input order |

## Left out

- The network fetch, the cache-busting URL, the CSV parser, and the Promise and error plumbing of `fetchStudents`. The model starts from the parsed rows.
- `getMockData`. It is fixed fixture data delivered after a timer.
- The Hebrew-calendar conversion of the current date (`Intl.DateTimeFormat` and `new Date()`), and the `parseInt` of its day and year parts. Day, month name and year are parameters.
- All rendering, navigation, `window.open`, the clipboard and timers. The sidebar, the install banner, the app shell and the build configuration are also left out: none holds logic the views above depend on. The install banner's user-agent test, the theme check and the sidebar's pinch-zoom clamp are browser-facing.
- JsString.ToLower: lowers ASCII capitals only. Hebrew has no case, but Latin-1 and other cased scripts are not lowered as `toLowerCase` would.
- BirthdayPage.BirthdayStudents: `localeCompare` is the parameter `le`, which must be a total preorder. ICU collation is not modelled. Stability is stated separately, by `BirthdayStudentsStable`.
- DataService.ToStudent: `encodeURIComponent` is the parameter `encode`.
- A row is its fields in `Object.keys` order. JavaScript puts integer-like keys first, and that reordering is not modelled. Rows may also repeat a header, which no object can. The model reads the first field with a given header; when headers are distinct, that is the field `row[key]` reads. A cell the parser leaves undefined is modelled as "", which is equally falsy.
- Decimal.IntToString: `toString` switches to exponent notation from 1e21 upwards, and that form is not modelled. Days, years and row indices never get near it.
- `string` is a sequence of code points, while JavaScript strings are UTF-16 code units. They differ only outside the Basic Multilingual Plane, where `trim`, `split` and the sort order could see the difference.
- JsString.ParsesAsInt: covers only whether `parseInt` yields a number (the `isNaN` test). The parsed value is not needed.

=== FILE: birthdaypage.dfy ===
/**
 * The "birthdays this month" page: its own copies of the numeral helpers,
 * the filtered and sorted listing, and the day-and-month line on each card.
 * The page's header line and month name are the same expressions as the
 * list view's (`StudentList.HebrewDateLabel`, `StudentList.StripMonthPrefix`).
 */
module BirthdayPage {
  import opened Wrappers
  import opened Types
  import Seqs
  import JsString
  import Decimal
  import StudentList

  // ---------------------------------------------------------------------
  // The page's copies of the numeral helpers
  // ---------------------------------------------------------------------

  /** The page's own literal day table. */
  const DayTable: seq<string> := ["", "א׳", "ב׳", "ג׳", "ד׳", "ה׳", "ו׳", "ז׳", "ח׳", "ט׳", "י׳", "י״א", "י״ב", "י״ג", "י״ד", "ט״ו", "ט״ז", "י״ז", "י״ח", "י״ט", "כ׳", "כ״א", "כ״ב", "כ״ג", "כ״ד", "כ״ה", "כ״ו", "כ״ז", "כ״ח", "כ״ט", "ל׳"]

  /** The page's own literal year table. */
  const YearTable: map<int, string> := map[5784 := "תשפ״ד", 5785 := "תשפ״ה", 5786 := "תשפ״ו", 5787 := "תשפ״ז"]

  /** `getHebrewDayGematria` as written on this page: the same answer as the list view's for every integer. */
  function DayGematria(day: int): (r: string)
    ensures r == StudentList.DayGematria(day)
  {
    assert DayTable == StudentList.DayTable;
    if 0 <= day < |DayTable| && DayTable[day] != "" then DayTable[day]
    else Decimal.IntToString(day)
  }

  /** `getHebrewYearGematria` as written on this page: the same answer as the list view's for every integer. */
  function YearGematria(year: int): (r: string)
    ensures r == StudentList.YearGematria(year)
  {
    assert YearTable == StudentList.YearTable;
    if year in YearTable && YearTable[year] != "" then YearTable[year]
    else Decimal.IntToString(year)
  }

  // ---------------------------------------------------------------------
  // The listing
  // ---------------------------------------------------------------------

  /** The sort key, `a.birthday_hebrew!`; only ever applied to students that have one. */
  function BirthdayText(s: Student): string {
    s.birthdayHebrew.GetOr("")
  }

  /**
   * `birthdayStudents`: the students whose birthday mentions the month,
   * sorted by the raw birthday text under `le`, the page's
   * `localeCompare(...) <= 0`, which must be a total preorder.
   */
  function BirthdayStudents(students: seq<Student>, month: string, le: (string, string) -> bool): (r: seq<Student>)
    requires Seqs.TotalPreorder(le)
    ensures forall s {:trigger s in r} :: s in r <==> s in students && StudentList.HasBirthdayIn(s, month)
    ensures multiset(r) == multiset(Celebrating(students, month))
    ensures Seqs.SortedBy(r, BirthdayText, le)
  {
    var celebrating := Celebrating(students, month);
    var r := Seqs.SortBy(celebrating, BirthdayText, le);
    assert forall s :: s in r <==> s in multiset(celebrating);
    r
  }

  /** The roster's students whose birthday mentions the month, in roster order. */
  function Celebrating(students: seq<Student>, month: string): seq<Student> {
    Seqs.Filter(students, s => StudentList.HasBirthdayIn(s, month))
  }

  /**
   * Students whose birthday texts compare as equal (`p` picks out those
   * equivalent to `k`) keep their roster order on the page.
   */
  lemma BirthdayStudentsStable(students: seq<Student>, month: string, le: (string, string) -> bool, k: string, p: Student -> bool)
    requires Seqs.TotalPreorder(le)
    requires forall y :: p(y) == (le(BirthdayText(y), k) && le(k, BirthdayText(y)))
    ensures Seqs.Filter(BirthdayStudents(students, month, le), p) == Seqs.Filter(Celebrating(students, month), p)
  {
    Seqs.SortByStable(Celebrating(students, month), BirthdayText, le, k, p);
  }

  /**
   * Text order is not day order: under code-unit comparison the 15th of a
   * month (tet-vav) sorts before the 10th (yod), because tet precedes yod.
   */
  lemma TextOrderIsNotDayOrder(s10: Student, s15: Student)
    requires s10.birthdayHebrew == Some("י׳ שבט תשס״ה")
    requires s15.birthdayHebrew == Some("ט״ו שבט תשס״ה")
    ensures StudentList.DayGematria(10) + " " <= s10.birthdayHebrew.value
    ensures StudentList.DayGematria(15) + " " <= s15.birthdayHebrew.value
    ensures Seqs.TotalPreorder(JsString.CodeUnitLe)
    ensures BirthdayStudents([s10, s15], "שבט", JsString.CodeUnitLe) == [s15, s10]
  {
    StudentList.DayGematriaExamples();
    StudentList.DayGematriaIrregular();
    assert s10.birthdayHebrew.value[..3] == StudentList.DayGematria(10) + " ";
    assert s15.birthdayHebrew.value[..4] == StudentList.DayGematria(15) + " ";
    ShevatListing(s10, s15);
  }

  /** The two Shevat birthdays above, listed under code-unit order. */
  lemma ShevatListing(s10: Student, s15: Student)
    requires s10.birthdayHebrew == Some("י׳ שבט תשס״ה")
    requires s15.birthdayHebrew == Some("ט״ו שבט תשס״ה")
    ensures Seqs.TotalPreorder(JsString.CodeUnitLe)
    ensures BirthdayStudents([s10, s15], "שבט", JsString.CodeUnitLe) == [s15, s10]
  {
    JsString.CodeUnitLeIsTotalPreorder();
    var r := BirthdayStudents([s10, s15], "שבט", JsString.CodeUnitLe);
    assert !JsString.CodeUnitLe(BirthdayText(s10), BirthdayText(s15)) by {
      assert BirthdayText(s10)[0] == 'י' && BirthdayText(s15)[0] == 'ט';
    }
    BothCelebrateShevat(s10, s15);
    assert multiset(r) == multiset{s10, s15};
    Seqs.SortedPair(r, s10, s15, BirthdayText, JsString.CodeUnitLe);
  }

  lemma BothCelebrateShevat(s10: Student, s15: Student)
    requires s10.birthdayHebrew == Some("י׳ שבט תשס״ה")
    requires s15.birthdayHebrew == Some("ט״ו שבט תשס״ה")
    ensures Celebrating([s10, s15], "שבט") == [s10, s15]
  {
    MentionsShevat(s10.birthdayHebrew.value, 3);
    MentionsShevat(s15.birthdayHebrew.value, 4);
    Seqs.FilterKeepsAll([s10, s15], s => StudentList.HasBirthdayIn(s, "שבט"));
  }

  lemma MentionsShevat(t: string, i: nat)
    requires i + 3 <= |t| && t[i] == 'ש' && t[i + 1] == 'ב' && t[i + 2] == 'ט'
    ensures JsString.OccursAt(t, "שבט", i)
  {
    assert t[i..i + 3] == [t[i], t[i + 1], t[i + 2]];
  }

  // ---------------------------------------------------------------------
  // The day-and-month line of a card
  // ---------------------------------------------------------------------

  /** The third field is shown only when present, non-empty and not a number to `parseInt`. */
  predicate ShowsThirdPart(parts: seq<string>) {
    |parts| >= 3 && parts[2] != "" && !JsString.ParsesAsInt(parts[2])
  }

  /**
   * `dayMonth`: with fewer than two space-separated fields, the whole
   * birthday; otherwise its first two fields, and the third too when it is
   * not numeric. The line is always a prefix of the birthday, and splitting
   * it gives back the leading fields it shows, never more than three.
   */
  function DayMonth(birthday: string): (r: string)
    ensures r <= birthday
    ensures |JsString.Split(birthday, ' ')| < 2 ==> r == birthday
    ensures var parts := JsString.Split(birthday, ' ');
            var shown := JsString.Split(r, ' ');
            && |shown| <= 3 && |shown| <= |parts|
            && shown == parts[..|shown|]
            && (|parts| >= 2 ==> |shown| == if ShowsThirdPart(parts) then 3 else 2)
  {
    var parts := JsString.Split(birthday, ' ');
    if |parts| >= 2 then
      var r := parts[0] + " " + parts[1] + (if ShowsThirdPart(parts) then " " + parts[2] else "");
      LeadingFields(parts, if ShowsThirdPart(parts) then 3 else 2, r);
      r
    else
      assert parts[..1] == parts;
      birthday
  }

  /** Two or three leading fields joined with spaces: a prefix of the whole, splitting back into those fields. */
  lemma LeadingFields(parts: seq<string>, k: nat, r: string)
    requires 2 <= k <= 3 && k <= |parts|
    requires forall i :: 0 <= i < |parts| ==> ' ' !in parts[i]
    requires r == parts[0] + " " + parts[1] + (if k == 3 then " " + parts[2] else "")
    ensures r <= JsString.Join(parts, ' ')
    ensures JsString.Split(r, ' ') == parts[..k]
  {
    if k == 3 {
      assert JsString.Join(parts[..k][1..][1..], ' ') == parts[2];
      assert JsString.Join(parts[..k][1..], ' ') == parts[1] + " " + parts[2];
    } else {
      assert JsString.Join(parts[..k][1..], ' ') == parts[1];
    }
    assert r == JsString.Join(parts[..k], ' ');
    JsString.JoinPrefix(parts, k, ' ');
    JsString.SplitJoin(parts[..k], ' ');
  }
}

=== FILE: dataservice.dfy ===
/**
 * Turning the rows of the roster sheet into students: the tolerant column
 * lookup, the defaults for missing cells, the ids, and the final filter that
 * drops unnamed rows. A row is the object the CSV parser builds from one
 * line, given here as its fields in `Object.keys` order.
 */
module DataService {
  import opened Wrappers
  import opened Types
  import Seqs
  import JsString
  import Decimal

  // ---------------------------------------------------------------------
  // Sheet layout and defaults
  // ---------------------------------------------------------------------

  const FullNameHeader: string := "full_name"
  const PhoneHeader: string := "phone_number"
  const ImageHeader: string := "image_url"
  const ClassHeader: string := "class"
  const NotesHeader: string := "notes"
  const BirthdayHeader: string := "יום הולדת"

  /** The Hebrew column titles tried when the primary header is absent. */
  const FullNameFallback: string := "שם מלא"
  const PhoneFallback: string := "טלפון"
  const ImageFallback: string := "תמונה"
  const ClassFallback: string := "כיתה"
  const NotesFallback: string := "הערות"
  const BirthdayFallback: string := "יום הולדת"

  /** The name given to a row without one ("student without a name"); such rows are dropped. */
  const NoName: string := "תלמיד ללא שם"
  /** The class given to a row without one ("general"). */
  const DefaultClass: string := "כללי"
  /** Avatar service URL; the URI-encoded name is appended. */
  const DefaultAvatar: string := "https://ui-avatars.com/api/?background=random&color=fff&name="
  /** Prefix of the id of a student without a phone number. */
  const IdPrefix: string := "student-"

  // ---------------------------------------------------------------------
  // Rows
  // ---------------------------------------------------------------------

  /** One cell: the column header and the cell text. */
  datatype Field = Field(key: string, value: string)

  /**
   * A parsed line: its fields in `Object.keys` order. A real row is an object,
   * so its headers are distinct; the model allows repeats and reads the first
   * field with a header, which agrees with the object whenever they are distinct.
   */
  type Row = seq<Field>

  /** No header occurs twice, as in every row the parser produces. */
  predicate DistinctKeys(row: Row) {
    forall i, j :: 0 <= i < j < |row| ==> row[i].key != row[j].key
  }

  /** The ways `getValue` selects a column by its header. */
  datatype Criterion =
    | Exact(key: string)       // `row[key]`: the header is `key` itself
    | Loose(key: string)       // lower-cased and trimmed, the header is `key` lower-cased
    | Fallback(title: string)  // trimmed, the header is the fallback title

  predicate Accepts(c: Criterion, header: string) {
    match c
    case Exact(key) => header == key
    case Loose(key) => JsString.Trim(JsString.ToLower(header)) == JsString.ToLower(key)
    case Fallback(title) => JsString.Trim(header) == title
  }

  /** `c` as a test on headers. */
  function Acceptor(c: Criterion): string -> bool {
    (header: string) => Accepts(c, header)
  }

  /** Field `i` holds the first header `accept` holds of: the one `Array#find` settles on. */
  predicate IsFirstMatch(row: Row, accept: string -> bool, i: int) {
    && 0 <= i < |row|
    && accept(row[i].key)
    && forall j :: 0 <= j < i ==> !accept(row[j].key)
  }

  /** `foundKey && row[foundKey]` holds of field `i`: its header and its cell are both non-empty. */
  predicate IsFilled(row: Row, i: int) {
    0 <= i < |row| && row[i].key != "" && row[i].value != ""
  }

  /** A stage of `getValue` yields nothing: no header passes its test, or the first that does has an empty header or cell. */
  predicate StageMisses(row: Row, accept: string -> bool) {
    forall i :: 0 <= i < |row| && IsFirstMatch(row, accept, i) ==> !IsFilled(row, i)
  }

  /** The position of the first field whose header `accept` holds of. */
  function FirstIndex(row: Row, accept: string -> bool): (r: Option<nat>)
    ensures r.None? <==> forall i :: 0 <= i < |row| ==> !accept(row[i].key)
    ensures r.Some? ==> IsFirstMatch(row, accept, r.value)
  {
    if |row| == 0 then None
    else if accept(row[0].key) then Some(0)
    else
      match FirstIndex(row[1..], accept)
      case None => None
      case Some(i) =>
        assert forall j :: 0 < j <= i ==> row[j] == row[1..][j - 1];
        Some(i + 1)
  }

  /** `row[key]`: the cell of the first field headed `key`, if the row has that column. */
  function Lookup(row: Row, key: string): (r: Option<string>)
    ensures r.None? <==> forall i :: 0 <= i < |row| ==> row[i].key != key
    ensures r.Some? ==> exists i :: IsFirstMatch(row, Acceptor(Exact(key)), i) && row[i].value == r.value
  {
    match FirstIndex(row, Acceptor(Exact(key)))
    case None => None
    case Some(i) => Some(row[i].value)
  }

  /** Reading the header of a first match back with `row[...]` gives that field's own cell. */
  lemma LookupOfFirstMatch(row: Row, accept: string -> bool, i: int)
    requires IsFirstMatch(row, accept, i)
    ensures Lookup(row, row[i].key) == Some(row[i].value)
  {
    var k := row[i].key;
    assert Lookup(row, k).Some?;
    var j :| IsFirstMatch(row, Acceptor(Exact(k)), j) && row[j].value == Lookup(row, k).value;
    assert Accepts(Exact(k), row[j].key);
    assert Accepts(Exact(k), row[i].key);
  }

  /** `Object.keys(row).find(accept)`: the first header `accept` holds of. */
  function FindKey(row: Row, accept: string -> bool): (r: Option<string>)
    ensures r.None? <==> forall i :: 0 <= i < |row| ==> !accept(row[i].key)
    ensures r.Some? ==> exists i :: IsFirstMatch(row, accept, i) && row[i].key == r.value
  {
    match FirstIndex(row, accept)
    case None => None
    case Some(i) => Some(row[i].key)
  }

  /**
   * `foundKey && row[foundKey]`: the cell under the first header `accept`
   * holds of, when that header is not empty and its cell is not empty.
   * Only the first passing header is looked at.
   */
  function CellOfFirst(row: Row, accept: string -> bool): (r: Option<string>)
    ensures r.None? <==> StageMisses(row, accept)
    ensures forall i :: IsFirstMatch(row, accept, i) && IsFilled(row, i) ==> r == Some(row[i].value)
    ensures r.Some? ==> r.value != "" && exists i :: IsFirstMatch(row, accept, i) && row[i].value == r.value
  {
    match FindKey(row, accept)
    case None => None
    case Some(k) =>
      var i :| IsFirstMatch(row, accept, i) && row[i].key == k;
      LookupOfFirstMatch(row, accept, i);
      assert forall j :: IsFirstMatch(row, accept, j) ==> j == i;
      if k != "" && Lookup(row, k).Some? && Lookup(row, k).value != "" then Some(Lookup(row, k).value)
      else None
  }

  /** Any of the three ways `getValue(row, key, fallbackKey)` can select a column. */
  predicate Selects(header: string, key: string, fallbackKey: string) {
    || Accepts(Exact(key), header)
    || Accepts(Loose(key), header)
    || (fallbackKey != "" && Accepts(Fallback(fallbackKey), header))
  }

  /** `row[key]` is truthy: the row has the column and its cell is not empty. */
  predicate ExactFilled(row: Row, key: string) {
    Lookup(row, key).Some? && Lookup(row, key).value != ""
  }

  /** The loose stage decides: the exact cell is missing or empty, and field `i`, the first loose match, is filled. */
  predicate LooseHit(row: Row, key: string, i: int) {
    !ExactFilled(row, key) && IsFirstMatch(row, Acceptor(Loose(key)), i) && IsFilled(row, i)
  }

  /** The fallback stage decides: the first two stages yield nothing, and field `i`, the first fallback match, is filled. */
  predicate FallbackHit(row: Row, key: string, fallbackKey: string, i: int) {
    && !ExactFilled(row, key)
    && StageMisses(row, Acceptor(Loose(key)))
    && fallbackKey != ""
    && IsFirstMatch(row, Acceptor(Fallback(fallbackKey)), i)
    && IsFilled(row, i)
  }

  /** No stage yields a cell. */
  predicate AllStagesMiss(row: Row, key: string, fallbackKey: string) {
    && !ExactFilled(row, key)
    && StageMisses(row, Acceptor(Loose(key)))
    && (fallbackKey == "" || StageMisses(row, Acceptor(Fallback(fallbackKey))))
  }

  /**
   * The untrimmed cell `getValue` settles on, if any: the exact cell when it
   * is filled; else the first loosely matching column when it is filled;
   * else, with a fallback title, the first column matching that when it is
   * filled; else nothing.
   */
  function ChosenCell(row: Row, key: string, fallbackKey: string): (r: Option<string>)
    ensures ExactFilled(row, key) ==> r == Lookup(row, key)
    ensures forall i :: LooseHit(row, key, i) ==> r == Some(row[i].value)
    ensures forall i :: FallbackHit(row, key, fallbackKey, i) ==> r == Some(row[i].value)
    ensures AllStagesMiss(row, key, fallbackKey) ==> r.None?
    ensures r.Some? ==> exists i :: 0 <= i < |row| && Selects(row[i].key, key, fallbackKey) && row[i].value == r.value
  {
    var exact := Lookup(row, key);
    if exact.Some? && exact.value != "" then exact
    else
      var loose := CellOfFirst(row, Acceptor(Loose(key)));
      if loose.Some? then loose
      else if fallbackKey != "" then CellOfFirst(row, Acceptor(Fallback(fallbackKey)))
      else None
  }

  /**
   * `getValue`: the trimmed cell under `key` if it is not empty; otherwise
   * the cell under the first header matching `key` loosely; otherwise, when
   * a fallback title is given, the cell under the first header equal to it
   * up to spaces; otherwise "". Each stage stops at its first matching
   * header, even if that cell is empty. A cell of spaces under `key` itself
   * ends the search with "".
   */
  function GetValue(row: Row, key: string, fallbackKey: string): (r: string)
    ensures JsString.IsTrimmed(r)
    ensures ExactFilled(row, key) ==> r == JsString.Trim(Lookup(row, key).value)
    ensures forall i :: LooseHit(row, key, i) ==> r == JsString.Trim(row[i].value)
    ensures forall i :: FallbackHit(row, key, fallbackKey, i) ==> r == JsString.Trim(row[i].value)
    ensures AllStagesMiss(row, key, fallbackKey) ==> r == ""
    ensures r != "" ==> exists i :: 0 <= i < |row| && Selects(row[i].key, key, fallbackKey) && r == JsString.Trim(row[i].value)
  {
    match ChosenCell(row, key, fallbackKey)
    case None => assert JsString.IsTrimmed(""); ""
    case Some(cell) => JsString.Trim(cell)
  }

  // ---------------------------------------------------------------------
  // Columns that play no part
  // ---------------------------------------------------------------------

  /** Columns before or after that none of the three tests selects do not affect the value. */
  lemma GetValueIgnoresOtherColumns(pre: Row, row: Row, post: Row, key: string, fallbackKey: string)
    requires forall i :: 0 <= i < |pre| ==> !Selects(pre[i].key, key, fallbackKey)
    requires forall i :: 0 <= i < |post| ==> !Selects(post[i].key, key, fallbackKey)
    ensures GetValue(pre + row + post, key, fallbackKey) == GetValue(row, key, fallbackKey)
  {
    ChosenCellAround(pre, row, post, key, fallbackKey);
  }

  lemma ChosenCellAround(pre: Row, row: Row, post: Row, key: string, fallbackKey: string)
    requires forall i :: 0 <= i < |pre| ==> !Selects(pre[i].key, key, fallbackKey)
    requires forall i :: 0 <= i < |post| ==> !Selects(post[i].key, key, fallbackKey)
    ensures ChosenCell(pre + row + post, key, fallbackKey) == ChosenCell(row, key, fallbackKey)
  {
    LookupAround(pre, row, post, key);
    CellOfFirstAround(pre, row, post, Acceptor(Loose(key)));
    if fallbackKey != "" {
      CellOfFirstAround(pre, row, post, Acceptor(Fallback(fallbackKey)));
    }
  }

  /** A header absent from the surrounding fields reads the same cell with or without them. */
  lemma LookupAround(pre: Row, row: Row, post: Row, key: string)
    requires forall i :: 0 <= i < |pre| ==> pre[i].key != key
    requires forall i :: 0 <= i < |post| ==> post[i].key != key
    ensures Lookup(pre + row + post, key) == Lookup(row, key)
  {
    FirstIndexAround(pre, row, post, Acceptor(Exact(key)));
    var found := FirstIndex(row, Acceptor(Exact(key)));
    if found.Some? {
      assert (pre + row + post)[found.value + |pre|] == row[found.value];
    }
  }

  /** The cell chosen by a header test that no surrounding header passes is unchanged by them. */
  lemma CellOfFirstAround(pre: Row, row: Row, post: Row, accept: string -> bool)
    requires forall i :: 0 <= i < |pre| ==> !accept(pre[i].key)
    requires forall i :: 0 <= i < |post| ==> !accept(post[i].key)
    ensures CellOfFirst(pre + row + post, accept) == CellOfFirst(row, accept)
  {
    var whole := pre + row + post;
    FirstIndexAround(pre, row, post, accept);
    var found := FirstIndex(row, accept);
    if found.Some? {
      var i := found.value;
      assert whole[i + |pre|] == row[i];
      assert forall j :: IsFirstMatch(row, accept, j) ==> j == i;
      assert forall j :: IsFirstMatch(whole, accept, j) ==> j == i + |pre|;
    }
  }

  /** `o` moved `n` positions on. */
  function Shift(o: Option<nat>, n: nat): Option<nat> {
    match o
    case None => None
    case Some(i) => Some(i + n)
  }

  /** Surrounding fields that fail the test move the first match by the length of those in front. */
  lemma FirstIndexAround(pre: Row, row: Row, post: Row, accept: string -> bool)
    requires forall i :: 0 <= i < |pre| ==> !accept(pre[i].key)
    requires forall i :: 0 <= i < |post| ==> !accept(post[i].key)
    ensures FirstIndex(pre + row + post, accept) == Shift(FirstIndex(row, accept), |pre|)
  {
    FirstIndexAppend(pre + row, post, accept);
    FirstIndexPrepend(pre, row, accept);
  }

  lemma {:induction false} FirstIndexPrepend(pre: Row, row: Row, accept: string -> bool)
    requires forall i :: 0 <= i < |pre| ==> !accept(pre[i].key)
    ensures FirstIndex(pre + row, accept) == Shift(FirstIndex(row, accept), |pre|)
  {
    if |pre| == 0 {
      assert pre + row == row;
    } else {
      var tail := pre[1..];
      assert forall i :: 0 <= i < |tail| ==> !accept(tail[i].key) by {
        forall i | 0 <= i < |tail| ensures !accept(tail[i].key) {
          assert tail[i] == pre[i + 1];
        }
      }
      FirstIndexPrepend(tail, row, accept);
      FirstIndexCons(pre[0], tail + row, accept);
      ShiftTwice(FirstIndex(row, accept), |tail|);
      assert pre + row == [pre[0]] + (tail + row);
    }
  }

  lemma ShiftTwice(o: Option<nat>, n: nat)
    ensures Shift(Shift(o, n), 1) == Shift(o, n + 1)
  {
  }

  lemma FirstIndexCons(f: Field, row: Row, accept: string -> bool)
    requires !accept(f.key)
    ensures FirstIndex([f] + row, accept) == Shift(FirstIndex(row, accept), 1)
  {
    assert ([f] + row)[1..] == row;
  }

  /** A first match found in `row` stays the first match after more fields are added; none added matches. */
  lemma {:induction false} FirstIndexAppend(row: Row, extra: Row, accept: string -> bool)
    requires forall i :: 0 <= i < |extra| ==> !accept(extra[i].key)
    ensures FirstIndex(row + extra, accept) == FirstIndex(row, accept)
  {
    if |row| > 0 {
      assert (row + extra)[1..] == row[1..] + extra;
      FirstIndexAppend(row[1..], extra, accept);
    } else {
      assert row + extra == extra;
    }
  }

  // ---------------------------------------------------------------------
  // The order of the stages
  // ---------------------------------------------------------------------

  /** Only the empty key matches the empty header loosely; a fallback title matches no empty header. */
  lemma EmptyHeaderMatches(key: string, title: string)
    ensures Accepts(Loose(key), "") ==> key == ""
    ensures Accepts(Fallback(title), "") ==> title == ""
  {
    assert JsString.Trim("") == "" && JsString.ToLower("") == "";
  }

  /** A one-column row whose header matches `key` only loosely yields its trimmed cell. */
  lemma LooseColumn(header: string, value: string, key: string, fallbackKey: string)
    requires header != key && Accepts(Loose(key), header) && value != ""
    ensures GetValue([Field(header, value)], key, fallbackKey) == JsString.Trim(value)
  {
    LooseColumnHit(header, value, key);
  }

  lemma LooseColumnHit(header: string, value: string, key: string)
    requires header != key && Accepts(Loose(key), header) && value != ""
    ensures LooseHit([Field(header, value)], key, 0)
  {
    assert header != "" by {
      EmptyHeaderMatches(key, "");
    }
    OneColumnNoExact(header, value, key);
    OneColumnFirst(header, value, Acceptor(Loose(key)));
  }

  /**
   * A header in other capitals or padded with spaces is found wherever it
   * stands, whatever unrelated columns surround it.
   */
  lemma LooseHeaderFound(pre: Row, header: string, value: string, post: Row, key: string, fallbackKey: string)
    requires forall i :: 0 <= i < |pre| ==> !Selects(pre[i].key, key, fallbackKey)
    requires forall i :: 0 <= i < |post| ==> !Selects(post[i].key, key, fallbackKey)
    requires header != key && Accepts(Loose(key), header) && value != ""
    ensures GetValue(pre + [Field(header, value)] + post, key, fallbackKey) == JsString.Trim(value)
  {
    GetValueIgnoresOtherColumns(pre, [Field(header, value)], post, key, fallbackKey);
    LooseColumn(header, value, key, fallbackKey);
  }

  /** A one-column row whose header is only the fallback title up to spaces yields its trimmed cell. */
  lemma FallbackColumn(header: string, value: string, key: string, fallbackKey: string)
    requires !Accepts(Exact(key), header) && !Accepts(Loose(key), header)
    requires fallbackKey != "" && Accepts(Fallback(fallbackKey), header) && value != ""
    ensures GetValue([Field(header, value)], key, fallbackKey) == JsString.Trim(value)
  {
    FallbackColumnHit(header, value, key, fallbackKey);
  }

  lemma FallbackColumnHit(header: string, value: string, key: string, fallbackKey: string)
    requires !Accepts(Exact(key), header) && !Accepts(Loose(key), header)
    requires fallbackKey != "" && Accepts(Fallback(fallbackKey), header) && value != ""
    ensures FallbackHit([Field(header, value)], key, fallbackKey, 0)
  {
    assert header != "" by {
      EmptyHeaderMatches(key, fallbackKey);
    }
    OneColumnNoExact(header, value, key);
    OneColumnMisses(header, value, Acceptor(Loose(key)));
    OneColumnFirst(header, value, Acceptor(Fallback(fallbackKey)));
  }

  lemma OneColumnNoExact(header: string, value: string, key: string)
    requires header != key
    ensures Lookup([Field(header, value)], key).None?
  {
    assert [Field(header, value)][0].key != key;
  }

  lemma OneColumnMisses(header: string, value: string, accept: string -> bool)
    requires !accept(header)
    ensures StageMisses([Field(header, value)], accept)
  {
    assert [Field(header, value)][0].key == header;
  }

  lemma OneColumnFirst(header: string, value: string, accept: string -> bool)
    requires accept(header)
    ensures IsFirstMatch([Field(header, value)], accept, 0)
  {
    assert [Field(header, value)][0].key == header;
  }

  /**
   * When no header matches `key`, a header equal to the fallback title up to
   * spaces is found wherever it stands, whatever unrelated columns surround it.
   */
  lemma FallbackHeaderFound(pre: Row, header: string, value: string, post: Row, key: string, fallbackKey: string)
    requires forall i :: 0 <= i < |pre| ==> !Selects(pre[i].key, key, fallbackKey)
    requires forall i :: 0 <= i < |post| ==> !Selects(post[i].key, key, fallbackKey)
    requires !Accepts(Exact(key), header) && !Accepts(Loose(key), header)
    requires fallbackKey != "" && Accepts(Fallback(fallbackKey), header) && value != ""
    ensures GetValue(pre + [Field(header, value)] + post, key, fallbackKey) == JsString.Trim(value)
  {
    GetValueIgnoresOtherColumns(pre, [Field(header, value)], post, key, fallbackKey);
    FallbackColumn(header, value, key, fallbackKey);
  }

  /** A loosely matching column wins over a filled fallback column, even one standing before it. */
  lemma LooseBeatsEarlierFallback(h1: string, v1: string, h2: string, v2: string, key: string, fallbackKey: string)
    requires h1 != key && !Accepts(Loose(key), h1) && fallbackKey != "" && Accepts(Fallback(fallbackKey), h1) && v1 != ""
    requires h2 != key && Accepts(Loose(key), h2) && v2 != ""
    ensures GetValue([Field(h1, v1), Field(h2, v2)], key, fallbackKey) == JsString.Trim(v2)
  {
    SecondColumnLooseHit(h1, v1, h2, v2, key);
  }

  lemma SecondColumnLooseHit(h1: string, v1: string, h2: string, v2: string, key: string)
    requires h1 != key && !Accepts(Loose(key), h1)
    requires h2 != key && Accepts(Loose(key), h2) && v2 != ""
    ensures LooseHit([Field(h1, v1), Field(h2, v2)], key, 1)
  {
    assert h2 != "" by {
      EmptyHeaderMatches(key, "");
    }
    TwoColumnsNoExact(h1, v1, h2, v2, key);
    SecondColumnFirst(h1, v1, h2, v2, Acceptor(Loose(key)));
  }

  lemma TwoColumnsNoExact(h1: string, v1: string, h2: string, v2: string, key: string)
    requires h1 != key && h2 != key
    ensures Lookup([Field(h1, v1), Field(h2, v2)], key).None?
  {
    var row := [Field(h1, v1), Field(h2, v2)];
    assert row[0].key == h1 && row[1].key == h2;
  }

  lemma SecondColumnFirst(h1: string, v1: string, h2: string, v2: string, accept: string -> bool)
    requires !accept(h1) && accept(h2)
    ensures IsFirstMatch([Field(h1, v1), Field(h2, v2)], accept, 1)
  {
    var row := [Field(h1, v1), Field(h2, v2)];
    assert row[0].key == h1 && row[1].key == h2;
  }

  lemma EmptyFirstCellMisses(h1: string, h2: string, v2: string, accept: string -> bool)
    requires accept(h1)
    ensures StageMisses([Field(h1, ""), Field(h2, v2)], accept)
  {
    var row := [Field(h1, ""), Field(h2, v2)];
    assert row[0].key == h1;
    assert forall i :: IsFirstMatch(row, accept, i) ==> i == 0;
  }

  /**
   * Only the first loosely matching header is read: when its cell is empty,
   * a later loosely matching column is not consulted, and without a
   * fallback title the value is "".
   */
  lemma FirstLooseHeaderDecides(h1: string, h2: string, v2: string, key: string)
    requires DistinctKeys([Field(h1, ""), Field(h2, v2)])
    requires h1 != key && Accepts(Loose(key), h1)
    requires h2 != key && Accepts(Loose(key), h2)
    ensures GetValue([Field(h1, ""), Field(h2, v2)], key, "") == ""
  {
    EmptyFirstLooseCellMisses(h1, h2, v2, key);
  }

  lemma EmptyFirstLooseCellMisses(h1: string, h2: string, v2: string, key: string)
    requires h1 != key && Accepts(Loose(key), h1)
    requires h2 != key
    ensures AllStagesMiss([Field(h1, ""), Field(h2, v2)], key, "")
  {
    TwoColumnsNoExact(h1, "", h2, v2, key);
    EmptyFirstCellMisses(h1, h2, v2, Acceptor(Loose(key)));
  }

  /**
   * A cell of spaces under `key` itself is truthy, so `getValue` stops there
   * with "" and never looks at a filled fallback column.
   */
  lemma BlankExactCellHidesFallback(key: string, fallbackKey: string, other: string, value: string)
    requires key != other
    ensures GetValue([Field(key, " "), Field(other, value)], key, fallbackKey) == ""
  {
    var row := [Field(key, " "), Field(other, value)];
    assert IsFirstMatch(row, Acceptor(Exact(key)), 0);
    assert Lookup(row, key) == Some(" ");
    assert JsString.Trim(" ") == "";
  }

  // ---------------------------------------------------------------------
  // Ids
  // ---------------------------------------------------------------------

  /**
   * `generateId`: the digits of the phone number, or `student-<index>` when
   * there is no phone number. A phone number without any digit gives the
   * empty id.
   */
  function GenerateId(phone: string, index: nat): (r: string)
    ensures phone != "" ==> JsString.AllDigits(r) && Seqs.IsSubsequence(r, phone)
    ensures phone != "" ==> forall c {:trigger multiset(r)[c]} :: JsString.IsDigit(c) ==> multiset(r)[c] == multiset(phone)[c]
    ensures phone == "" ==> IdPrefix <= r && Decimal.Canonical(r[|IdPrefix|..])
    ensures phone == "" ==> Decimal.ParseInteger(r[|IdPrefix|..]) == Some(index)
  {
    if phone != "" then JsString.DigitsOf(phone)
    else IdPrefix + Decimal.IntToString(index)
  }

  /** Students without a phone number get different ids at different positions. */
  lemma PlaceholderIdsDistinct(i: nat, j: nat)
    requires i != j
    ensures GenerateId("", i) != GenerateId("", j)
  {
  }

  /** An id made from a phone number is never one made from a position. */
  lemma PhoneIdNeverPlaceholder(phone: string, i: nat, j: nat)
    requires phone != ""
    ensures GenerateId(phone, i) != GenerateId("", j)
  {
    assert GenerateId("", j)[0] == 's';
  }

  /** A phone id does not depend on the position or on how the number is punctuated. */
  lemma PhoneIdIgnoresFormatting(a: string, c: char, b: string, i: nat, j: nat)
    requires !JsString.IsDigit(c) && a + b != ""
    ensures GenerateId(a + [c] + b, i) == GenerateId(a + b, j)
  {
    JsString.DigitsOfSkipsSeparator(a, c, b);
  }

  // ---------------------------------------------------------------------
  // Row to student
  // ---------------------------------------------------------------------

  /**
   * What every built student has: a trimmed, non-empty name and class, an
   * image address, and a birthday text (possibly empty).
   */
  predicate IsComplete(s: Student) {
    && s.fullName != "" && JsString.IsTrimmed(s.fullName)
    && s.className != "" && JsString.IsTrimmed(s.className)
    && s.imageUrl != ""
    && s.birthdayHebrew.Some?
  }

  /** JavaScript's `a || b` on strings. */
  function OrElse(a: string, b: string): (r: string)
    ensures r == a || r == b
    ensures r != "" <==> a != "" || b != ""
  {
    if a != "" then a else b
  }

  /**
   * The student built from row `index`: each column looked up with its
   * fallback title; the placeholder name and the general class when those
   * cells are empty; a generated avatar when there is no image. `encode`
   * stands for `encodeURIComponent`.
   */
  function ToStudent(row: Row, index: nat, encode: string -> string): (s: Student)
    ensures IsComplete(s)
    ensures s.fullName == NoName <==> GetValue(row, FullNameHeader, FullNameFallback) in {"", NoName}
    ensures GetValue(row, FullNameHeader, FullNameFallback) != "" ==> s.fullName == GetValue(row, FullNameHeader, FullNameFallback)
    ensures GetValue(row, ClassHeader, ClassFallback) != "" ==> s.className == GetValue(row, ClassHeader, ClassFallback)
    ensures GetValue(row, ClassHeader, ClassFallback) == "" ==> s.className == DefaultClass
    ensures s.phoneNumber == GetValue(row, PhoneHeader, PhoneFallback)
    ensures s.notes == GetValue(row, NotesHeader, NotesFallback)
    ensures s.birthdayHebrew == Some(GetValue(row, BirthdayHeader, BirthdayFallback))
    ensures s.id == GenerateId(s.phoneNumber, index)
    ensures GetValue(row, ImageHeader, ImageFallback) != "" ==> s.imageUrl == GetValue(row, ImageHeader, ImageFallback)
    ensures GetValue(row, ImageHeader, ImageFallback) == "" ==> s.imageUrl == DefaultAvatar + encode(s.fullName)
  {
    var fullName := OrElse(GetValue(row, FullNameHeader, FullNameFallback), NoName);
    var phone := GetValue(row, PhoneHeader, PhoneFallback);
    var rawImage := GetValue(row, ImageHeader, ImageFallback);
    var className := OrElse(GetValue(row, ClassHeader, ClassFallback), DefaultClass);
    var notes := GetValue(row, NotesHeader, NotesFallback);
    var birthday := GetValue(row, BirthdayHeader, BirthdayFallback);
    var imageUrl := if rawImage != "" then rawImage else DefaultAvatar + encode(fullName);
    DefaultsTrimmed();
    Student(GenerateId(phone, index), fullName, phone, imageUrl, className, notes, Some(birthday))
  }

  /** The two default texts carry no surrounding spaces. */
  lemma DefaultsTrimmed()
    ensures JsString.IsTrimmed(NoName) && NoName != ""
    ensures JsString.IsTrimmed(DefaultClass) && DefaultClass != ""
  {
    assert |NoName| == 12 && NoName[0] == 'ת' && NoName[11] == 'ם';
    assert |DefaultClass| == 4 && DefaultClass[0] == 'כ' && DefaultClass[3] == 'י';
  }

  /** `results.data.map(...)`: one student per row, numbered by position. */
  function MapRows(rows: seq<Row>, encode: string -> string): (r: seq<Student>)
    ensures |r| == |rows|
    ensures forall i :: 0 <= i < |rows| ==> r[i] == ToStudent(rows[i], i, encode)
    ensures forall i :: 0 <= i < |r| ==> IsComplete(r[i])
  {
    seq(|rows|, i requires 0 <= i < |rows| => ToStudent(rows[i], i, encode))
  }

  /** The final filter: not the placeholder name and not blank. */
  predicate IsNamed(s: Student) {
    s.fullName != NoName && JsString.Trim(s.fullName) != ""
  }

  /** `fetchStudents` after parsing: the named students, in sheet order. */
  function LoadStudents(rows: seq<Row>, encode: string -> string): (r: seq<Student>)
    ensures Seqs.IsSubsequence(r, MapRows(rows, encode))
    ensures |r| <= |rows|
    ensures forall s :: s in r ==> s.fullName != NoName && IsComplete(s)
  {
    var all := MapRows(rows, encode);
    var r := Seqs.Filter(all, IsNamed);
    assert forall s :: s in r ==> s in all && IsNamed(s);
    assert forall s :: s in all ==> IsComplete(s);
    r
  }

  /** Row `i` survives exactly when its name cell holds a name other than the placeholder. */
  lemma RowKeptIffNamed(rows: seq<Row>, encode: string -> string, i: nat)
    requires i < |rows|
    ensures var name := GetValue(rows[i], FullNameHeader, FullNameFallback);
      ToStudent(rows[i], i, encode) in LoadStudents(rows, encode) <==> name != "" && name != NoName
  {
    var s := ToStudent(rows[i], i, encode);
    var all := MapRows(rows, encode);
    assert all[i] == s;
    assert s in all;
    NamedIffNotPlaceholder(s);
  }

  /** For a built student the blank test is implied: being named is not being the placeholder. */
  lemma NamedIffNotPlaceholder(s: Student)
    requires IsComplete(s)
    ensures IsNamed(s) <==> s.fullName != NoName
  {
    JsString.TrimTrimmed(s.fullName);
  }

  /** The blank-name test never fires: every mapped name is trimmed and non-empty, so only the placeholder is dropped. */
  lemma BlankTestRedundant(rows: seq<Row>, encode: string -> string)
    ensures LoadStudents(rows, encode) == Seqs.Filter(MapRows(rows, encode), (s: Student) => s.fullName != NoName)
  {
    var all := MapRows(rows, encode);
    forall i | 0 <= i < |all| ensures IsNamed(all[i]) == (all[i].fullName != NoName) {
      NamedIffNotPlaceholder(all[i]);
    }
    FilterSamePredicate(all, IsNamed, (s: Student) => s.fullName != NoName);
  }

  lemma {:induction false} FilterSamePredicate(s: seq<Student>, p: Student -> bool, q: Student -> bool)
    requires forall i :: 0 <= i < |s| ==> p(s[i]) == q(s[i])
    ensures Seqs.Filter(s, p) == Seqs.Filter(s, q)
  {
    if |s| > 0 {
      FilterSamePredicate(s[1..], p, q);
    }
  }

  /** Loaded students without a phone number have pairwise different ids. */
  lemma PhonelessIdsDistinct(rows: seq<Row>, encode: string -> string, i: nat, j: nat)
    requires i < j < |rows|
    requires GetValue(rows[i], PhoneHeader, PhoneFallback) == ""
    requires GetValue(rows[j], PhoneHeader, PhoneFallback) == ""
    ensures ToStudent(rows[i], i, encode).id != ToStudent(rows[j], j, encode).id
  {
    PlaceholderIdsDistinct(i, j);
  }
}

=== FILE: decimal.dfy ===
/**
 * `Number.prototype.toString()` on integers (the fallback of both numeral
 * helpers and the index in generated ids), with a decimal reader as its
 * partner: reading the printed digits gives the number back.
 */
module Decimal {
  import opened Wrappers
  import JsString

  function DigitChar(d: nat): (c: char)
    requires d < 10
    ensures JsString.IsDigit(c) && c as int - '0' as int == d
  {
    ('0' as int + d) as char
  }

  /** The shortest decimal rendering of `n`: no leading zero except in "0" itself. */
  function NatToString(n: nat): (r: string)
    ensures |r| >= 1 && JsString.AllDigits(r)
    ensures r[0] == '0' ==> n == 0 && r == "0"
    decreases n
  {
    if n < 10 then [DigitChar(n)]
    else NatToString(n / 10) + [DigitChar(n % 10)]
  }

  /** The value of a string of decimal digits (the empty string reads as 0). */
  function DigitsValue(s: string): nat
    requires JsString.AllDigits(s)
  {
    if |s| == 0 then 0
    else DigitsValue(s[..|s| - 1]) * 10 + (s[|s| - 1] as int - '0' as int)
  }

  /** Reads an optionally negative decimal integer; anything else is `None`. */
  function ParseInteger(s: string): Option<int>
  {
    if |s| >= 2 && s[0] == '-' && JsString.AllDigits(s[1..]) then Some(0 - DigitsValue(s[1..]) as int)
    else if |s| >= 1 && JsString.AllDigits(s) then Some(DigitsValue(s))
    else None
  }

  lemma {:induction false} NatToStringValue(n: nat)
    ensures DigitsValue(NatToString(n)) == n
    decreases n
  {
    if n >= 10 {
      NatToStringValue(n / 10);
      var r := NatToString(n);
      assert r[..|r| - 1] == NatToString(n / 10);
    }
  }

  /**
   * The form `toString` prints: digits with no leading zero (except "0"
   * itself), or a minus sign followed by such digits that are not zero.
   */
  predicate Canonical(s: string) {
    || (|s| >= 1 && JsString.AllDigits(s) && (s[0] == '0' ==> s == "0"))
    || (|s| >= 2 && s[0] == '-' && JsString.AllDigits(s[1..]) && s[1] != '0')
  }

  /** `i.toString()`: a minus sign for negatives, then the digits of the magnitude. */
  function IntToString(i: int): (r: string)
    ensures ParseInteger(r) == Some(i)
    ensures Canonical(r)
    ensures |r| >= 1 && ' ' !in r
  {
    if i < 0 then
      var r := "-" + NatToString(-i);
      NatToStringValue(-i);
      assert r[1..] == NatToString(-i);
      r
    else
      NatToStringValue(i);
      NatToString(i)
  }

  /** Distinct numbers print differently. */
  lemma IntToStringInjective(i: int, j: int)
    requires i != j
    ensures IntToString(i) != IntToString(j)
  {
  }

  /** Digits that do not start with a zero are worth at least one. */
  lemma {:induction false} LeadingDigitPositive(s: string)
    requires |s| >= 1 && JsString.AllDigits(s) && s[0] != '0'
    ensures DigitsValue(s) >= 1
    decreases |s|
  {
    if |s| > 1 {
      LeadingDigitPositive(s[..|s| - 1]);
    }
  }

  /** Digits without a superfluous leading zero are exactly how their value prints. */
  lemma {:induction false} CanonicalDigitsRoundTrip(s: string)
    requires |s| >= 1 && JsString.AllDigits(s) && (s[0] == '0' ==> s == "0")
    ensures NatToString(DigitsValue(s)) == s
    decreases |s|
  {
    var last := s[|s| - 1] as int - '0' as int;
    if |s| == 1 {
      assert DigitsValue(s) == last;
    } else {
      var p := s[..|s| - 1];
      CanonicalDigitsRoundTrip(p);
      LeadingDigitPositive(p);
      var v := DigitsValue(s);
      assert v == DigitsValue(p) * 10 + last && v >= 10;
      assert v / 10 == DigitsValue(p) && v % 10 == last;
      assert s == p + [s[|s| - 1]];
    }
  }

  /**
   * The printed form is the only canonical text that reads as the number:
   * whatever canonical string parses to `i` is `i.toString()`.
   */
  lemma CanonicalUnique(s: string, i: int)
    requires Canonical(s) && ParseInteger(s) == Some(i)
    ensures s == IntToString(i)
  {
    if |s| >= 2 && s[0] == '-' && JsString.AllDigits(s[1..]) {
      CanonicalDigitsRoundTrip(s[1..]);
      LeadingDigitPositive(s[1..]);
      assert s == "-" + s[1..];
    } else {
      CanonicalDigitsRoundTrip(s);
    }
  }
}

=== FILE: hebrew_numerals.dfy ===
/**
 * The traditional letter-value rendering of a Hebrew numeral (gematria):
 * 400s as repeated tav, then one hundreds letter, then tens and units, with
 * 15 and 16 spelled tet-vav and tet-zayin; a geresh after a single letter and
 * a gershayim before the last of several. Years above 5000 drop the thousands
 * ("minor count"). The directory app does not compute numerals this way; its
 * literal tables are checked against this definition.
 */
module HebrewNumerals {

  const Geresh: char := '׳'
  const Gershayim: char := '״'

  const UnitLetters: string := "אבגדהוזחט"
  const TensLetters: string := "יכלמנסעפצ"
  const HundredsLetters: string := "קרשת"

  /** A Hebrew letter from alef to tav; the range also holds the final forms, which numerals never use. */
  predicate IsNumeralLetter(c: char) {
    'א' <= c <= 'ת'
  }

  /** Tens and units of `n < 100`, with 15 and 16 spelled 9+6 and 9+7. */
  function TensAndUnits(n: nat): (r: string)
    requires n < 100
    ensures |r| <= 2
    ensures n > 0 ==> |r| >= 1
    ensures forall i :: 0 <= i < |r| ==> IsNumeralLetter(r[i])
  {
    if n == 15 then "טו"
    else if n == 16 then "טז"
    else
      (if n / 10 > 0 then [TensLetters[n / 10 - 1]] else "")
      + (if n % 10 > 0 then [UnitLetters[n % 10 - 1]] else "")
  }

  /** The letters of `n`, before punctuation. */
  function Letters(n: nat): (r: string)
    ensures n > 0 ==> |r| >= 1
    ensures forall i :: 0 <= i < |r| ==> IsNumeralLetter(r[i])
    decreases n
  {
    if n >= 400 then "ת" + Letters(n - 400)
    else if n >= 100 then [HundredsLetters[n / 100 - 1]] + TensAndUnits(n % 100)
    else TensAndUnits(n)
  }

  /** Geresh after a lone letter; gershayim before the last of several. */
  function Punctuate(letters: string): (r: string)
    ensures forall i :: 0 <= i < |r| ==> r[i] in letters || r[i] == Geresh || r[i] == Gershayim
    ensures |r| == 0 <==> |letters| == 0
  {
    if |letters| == 0 then ""
    else if |letters| == 1 then letters + [Geresh]
    else letters[..|letters| - 1] + [Gershayim] + [letters[|letters| - 1]]
  }

  /** The numeral for `n`; non-positive numbers have none. */
  function Numeral(n: int): (r: string)
    ensures r == "" <==> n <= 0
    ensures ' ' !in r
  {
    if n <= 0 then ""
    else Punctuate(Letters(if n > 5000 then n - 5000 else n))
  }

  /** Count of `c` in `s`. */
  function Occurrences(s: string, c: char): nat
  {
    multiset(s)[c]
  }

  /**
   * The punctuation rule: a one-letter numeral is that letter and a geresh;
   * a longer one carries exactly one gershayim, just before its last letter,
   * and no geresh.
   */
  lemma PunctuationRule(n: int)
    requires n > 0
    ensures var letters := Letters(if n > 5000 then n - 5000 else n);
      var r := Numeral(n);
      && (|letters| == 1 ==> |r| == 2 && r[0] == letters[0] && r[1] == Geresh)
      && (|letters| >= 2 ==>
            && |r| == |letters| + 1
            && r[|r| - 2] == Gershayim
            && r[|r| - 1] == letters[|letters| - 1]
            && Occurrences(r, Gershayim) == 1
            && Occurrences(r, Geresh) == 0)
  {
    var letters := Letters(if n > 5000 then n - 5000 else n);
    assert Numeral(n) == Punctuate(letters);
    PunctuateShape(letters);
  }

  /** The punctuation rule for any string of numeral letters. */
  lemma PunctuateShape(letters: string)
    requires forall i :: 0 <= i < |letters| ==> IsNumeralLetter(letters[i])
    ensures var r := Punctuate(letters);
      && (|letters| == 1 ==> |r| == 2 && r[0] == letters[0] && r[1] == Geresh)
      && (|letters| >= 2 ==>
            && |r| == |letters| + 1
            && r[|r| - 2] == Gershayim
            && r[|r| - 1] == letters[|letters| - 1]
            && Occurrences(r, Gershayim) == 1
            && Occurrences(r, Geresh) == 0)
  {
    if |letters| >= 2 {
      var init := letters[..|letters| - 1];
      assert Gershayim !in init && Geresh !in init by {
        forall i | 0 <= i < |init| ensures IsNumeralLetter(init[i]) {
          assert init[i] == letters[i];
        }
      }
      assert IsNumeralLetter(letters[|letters| - 1]);
    }
  }

  /** Units: the unit letter and a geresh. */
  lemma UnitsNumeral(d: int)
    requires 1 <= d <= 9
    ensures Numeral(d) == [UnitLetters[d - 1], Geresh]
  {
    assert Letters(d) == [UnitLetters[d - 1]];
  }

  /** Whole tens: the tens letter and a geresh. */
  lemma TensNumeral(t: int)
    requires 1 <= t <= 9
    ensures Numeral(10 * t) == [TensLetters[t - 1], Geresh]
  {
    assert Letters(10 * t) == [TensLetters[t - 1]];
  }

  /** Other two-digit numbers except 15 and 16: tens letter, gershayim, unit letter. */
  lemma TwoLetterNumeral(d: int)
    requires 10 < d < 100 && d % 10 != 0 && d != 15 && d != 16
    ensures Numeral(d) == [TensLetters[d / 10 - 1], Gershayim, UnitLetters[d % 10 - 1]]
  {
    assert Letters(d) == [TensLetters[d / 10 - 1], UnitLetters[d % 10 - 1]];
  }

  /** Years 5781 to 5789: minor count 781 to 789, tav-shin-pe and the unit letter. */
  lemma YearNumeral(u: int)
    requires 1 <= u <= 9
    ensures Numeral(5780 + u) == ['ת', 'ש', 'פ', Gershayim, UnitLetters[u - 1]]
  {
    var letters := ['ת', 'ש', 'פ', UnitLetters[u - 1]];
    MinorCountLetters(u);
    assert Numeral(5780 + u) == Punctuate(letters);
  }

  /** The letters of 781 to 789. */
  lemma MinorCountLetters(u: int)
    requires 1 <= u <= 9
    ensures Letters(780 + u) == ['ת', 'ש', 'פ', UnitLetters[u - 1]]
  {
    var unit := UnitLetters[u - 1];
    assert (80 + u) / 10 == 8 && (80 + u) % 10 == u;
    assert TensAndUnits(80 + u) == ['פ', unit];
    assert (380 + u) / 100 == 3 && (380 + u) % 100 == 80 + u;
    assert Letters(380 + u) == ['ש', 'פ', unit];
  }

  /** The irregular spellings: 15 is 9+6 and 16 is 9+7. */
  lemma FifteenAndSixteen()
    ensures Numeral(15) == "ט״ו"
    ensures Numeral(16) == "ט״ז"
  {
    assert Letters(15) == "טו";
    assert Letters(16) == "טז";
  }
}

=== FILE: jsstring.dfy ===
/**
 * The JavaScript string built-ins the directory app calls, on `string`
 * (`seq<char>`). Each is stated against ECMA-262 semantics; characters
 * outside the Basic Multilingual Plane, where a `char` (a code point) and a
 * JavaScript UTF-16 code unit differ, are not distinguished.
 */
module JsString {
  import Seqs

  // ---------------------------------------------------------------------
  // Whitespace and String.prototype.trim
  // ---------------------------------------------------------------------

  /**
   * The characters `trim` removes: ECMA-262's WhiteSpace (tab, vertical tab,
   * form feed, ZWNBSP and every Unicode "Zs" space) and LineTerminator
   * (LF, CR, LS, PS) code points.
   */
  predicate IsWhiteSpace(c: char) {
    || c == '\t' || c == '\n' || c == '\U{000B}' || c == '\U{000C}' || c == '\r'
    || c == ' ' || c == '\U{00A0}' || c == '\U{1680}'
    || ('\U{2000}' <= c <= '\U{200A}')
    || c == '\U{2028}' || c == '\U{2029}' || c == '\U{202F}' || c == '\U{205F}'
    || c == '\U{3000}' || c == '\U{FEFF}'
  }

  predicate AllWhiteSpace(s: string) {
    forall i :: 0 <= i < |s| ==> IsWhiteSpace(s[i])
  }

  /** Neither end is whitespace: `trim` would leave the string as it is. */
  predicate IsTrimmed(s: string) {
    |s| == 0 || (!IsWhiteSpace(s[0]) && !IsWhiteSpace(s[|s| - 1]))
  }

  /** `r` is what remains of `s` once its whitespace ends are cut away. */
  ghost predicate IsTrimOf(r: string, s: string) {
    && IsTrimmed(r)
    && exists i, j :: TrimmedBetween(s, i, j) && s[i..j] == r
  }

  /** Everything of `s` outside `[i, j)` is whitespace. */
  predicate TrimmedBetween(s: string, i: int, j: int) {
    && 0 <= i <= j <= |s|
    && (forall k :: 0 <= k < i ==> IsWhiteSpace(s[k]))
    && (forall k :: j <= k < |s| ==> IsWhiteSpace(s[k]))
  }

  /** Drops the longest all-whitespace prefix. */
  function TrimStart(s: string): (r: string)
    ensures |r| <= |s| && r == s[|s| - |r|..]
    ensures forall k :: 0 <= k < |s| - |r| ==> IsWhiteSpace(s[k])
    ensures |r| > 0 ==> !IsWhiteSpace(r[0])
  {
    if |s| > 0 && IsWhiteSpace(s[0]) then
      var r := TrimStart(s[1..]);
      assert forall k :: 1 <= k < |s| - |r| ==> s[k] == s[1..][k - 1];
      r
    else s
  }

  /** Drops the longest all-whitespace suffix. */
  function TrimEnd(s: string): (r: string)
    ensures |r| <= |s| && r == s[..|r|]
    ensures forall k :: |r| <= k < |s| ==> IsWhiteSpace(s[k])
    ensures |r| > 0 ==> !IsWhiteSpace(r[|r| - 1])
  {
    if |s| > 0 && IsWhiteSpace(s[|s| - 1]) then
      var r := TrimEnd(s[..|s| - 1]);
      assert forall k :: |r| <= k < |s| - 1 ==> s[k] == s[..|s| - 1][k];
      r
    else s
  }

  /** `String.prototype.trim`. */
  function Trim(s: string): (r: string)
    ensures IsTrimmed(r)
    ensures |r| <= |s|
  {
    var r := TrimEnd(TrimStart(s));
    TrimProperties(s, r);
    r
  }

  /** `trim` cuts exactly the whitespace ends, and leaves nothing only of an all-whitespace string. */
  lemma TrimSpec(s: string)
    ensures IsTrimOf(Trim(s), s)
    ensures Trim(s) == "" <==> AllWhiteSpace(s)
  {
    TrimProperties(s, Trim(s));
  }

  lemma TrimProperties(s: string, r: string)
    requires r == TrimEnd(TrimStart(s))
    ensures IsTrimOf(r, s)
    ensures r == "" <==> AllWhiteSpace(s)
  {
    var t := TrimStart(s);
    var i := |s| - |t|;
    TrimWindow(s, t, r);
    if r == "" {
      assert t == "";
      assert forall k :: 0 <= k < |s| ==> IsWhiteSpace(s[k]);
    } else {
      assert r[0] == s[i];
    }
  }

  /** A whitespace prefix cut, then a whitespace suffix cut, leave a window of the original. */
  lemma TrimWindow(s: string, t: string, r: string)
    requires |t| <= |s| && t == s[|s| - |t|..]
    requires forall k :: 0 <= k < |s| - |t| ==> IsWhiteSpace(s[k])
    requires |r| <= |t| && r == t[..|r|]
    requires forall k :: |r| <= k < |t| ==> IsWhiteSpace(t[k])
    ensures TrimmedBetween(s, |s| - |t|, |s| - |t| + |r|)
    ensures s[|s| - |t|..|s| - |t| + |r|] == r
  {
    var i := |s| - |t|;
    forall k | i + |r| <= k < |s| ensures IsWhiteSpace(s[k]) {
      assert s[k] == t[k - i];
    }
  }

  /** Trimming a string with no whitespace ends changes nothing; so `trim` is idempotent. */
  lemma TrimTrimmed(s: string)
    requires IsTrimmed(s)
    ensures Trim(s) == s
  {
  }

  lemma TrimIdempotent(s: string)
    ensures Trim(Trim(s)) == Trim(s)
  {
    TrimTrimmed(Trim(s));
  }

  // ---------------------------------------------------------------------
  // includes, toLowerCase
  // ---------------------------------------------------------------------

  /** `needle` occurs in `hay` starting at index `i`. */
  ghost predicate OccursAt(hay: string, needle: string, i: int) {
    0 <= i <= |hay| - |needle| && hay[i..i + |needle|] == needle
  }

  /** `hay.includes(needle)`: `needle` occurs somewhere in `hay` as a contiguous block. */
  function Contains(hay: string, needle: string): (b: bool)
    ensures b <==> exists i :: OccursAt(hay, needle, i)
    decreases |hay|
  {
    if needle <= hay then
      assert OccursAt(hay, needle, 0);
      true
    else if |hay| == 0 then
      false
    else
      var b := Contains(hay[1..], needle);
      assert b ==> exists i :: OccursAt(hay, needle, i) by {
        if b {
          var k :| OccursAt(hay[1..], needle, k);
          OccursShift(hay, needle, k);
        }
      }
      assert (exists i :: OccursAt(hay, needle, i)) ==> b by {
        if exists i :: OccursAt(hay, needle, i) {
          var k :| OccursAt(hay, needle, k);
          assert k != 0;
          OccursShift(hay, needle, k - 1);
        }
      }
      b
  }

  /** An occurrence in the tail of `hay` is one position further on in `hay`, and back. */
  lemma OccursShift(hay: string, needle: string, k: nat)
    requires |hay| > 0
    ensures OccursAt(hay[1..], needle, k) <==> OccursAt(hay, needle, k + 1)
  {
    if 0 <= k <= |hay| - 1 - |needle| {
      assert hay[1..][k..k + |needle|] == hay[k + 1..k + 1 + |needle|];
    }
  }

  /** ASCII upper-case letters lowered; every other character, Hebrew included, kept. */
  function LowerChar(c: char): char {
    if 'A' <= c <= 'Z' then (c as int + 32) as char else c
  }

  predicate IsAsciiUpper(c: char) {
    'A' <= c <= 'Z'
  }

  /** `String.prototype.toLowerCase`, for the letters that have an ASCII case. */
  function ToLower(s: string): (r: string)
    ensures |r| == |s|
    ensures forall i :: 0 <= i < |r| ==> !IsAsciiUpper(r[i])
    ensures forall i :: 0 <= i < |s| && !IsAsciiUpper(s[i]) ==> r[i] == s[i]
    ensures forall i :: 0 <= i < |s| && IsAsciiUpper(s[i]) ==> r[i] as int == s[i] as int + 32
  {
    seq(|s|, i requires 0 <= i < |s| => LowerChar(s[i]))
  }

  lemma ToLowerIdempotent(s: string)
    ensures ToLower(ToLower(s)) == ToLower(s)
  {
  }

  // ---------------------------------------------------------------------
  // String.prototype.split with a one-character separator, and Array#join
  // ---------------------------------------------------------------------

  /** `parts.join(sep)`. */
  function Join(parts: seq<string>, sep: char): string
  {
    if |parts| == 0 then ""
    else if |parts| == 1 then parts[0]
    else parts[0] + [sep] + Join(parts[1..], sep)
  }

  /**
   * `s.split(sep)`: the maximal separator-free pieces between separators,
   * empty pieces included; the empty string splits into one empty piece.
   */
  function Split(s: string, sep: char): (parts: seq<string>)
    ensures |parts| >= 1
    ensures forall k :: 0 <= k < |parts| ==> sep !in parts[k]
    ensures Join(parts, sep) == s
    ensures |parts| == 1 <==> sep !in s
  {
    if |s| == 0 then [""]
    else
      var rest := Split(s[1..], sep);
      assert s == [s[0]] + s[1..];
      if s[0] == sep then
        JoinAfterEmpty(rest, sep);
        [""] + rest
      else
        JoinExtendFirst(s[0], rest, sep);
        [[s[0]] + rest[0]] + rest[1..]
  }

  /** An empty first piece contributes just the separator. */
  lemma JoinAfterEmpty(rest: seq<string>, sep: char)
    requires |rest| >= 1
    ensures Join([""] + rest, sep) == [sep] + Join(rest, sep)
  {
    assert ([""] + rest)[1..] == rest;
  }

  /** Prefixing a character to the first piece prefixes it to the whole. */
  lemma JoinExtendFirst(c: char, rest: seq<string>, sep: char)
    requires |rest| >= 1
    ensures Join([[c] + rest[0]] + rest[1..], sep) == [c] + Join(rest, sep)
  {
    var parts := [[c] + rest[0]] + rest[1..];
    if |rest| >= 2 {
      assert parts[1..] == rest[1..];
    }
  }

  lemma {:induction false} SplitSeparatorFree(a: string, sep: char)
    requires sep !in a
    ensures Split(a, sep) == [a]
  {
    if |a| > 0 {
      SplitSeparatorFree(a[1..], sep);
    }
  }

  lemma {:induction false} SplitAtSeparator(a: string, b: string, sep: char)
    requires sep !in a
    ensures Split(a + [sep] + b, sep) == [a] + Split(b, sep)
  {
    if |a| == 0 {
      assert a + [sep] + b == [sep] + b;
      assert ([sep] + b)[1..] == b;
    } else {
      assert (a + [sep] + b)[1..] == a[1..] + [sep] + b;
      SplitAtSeparator(a[1..], b, sep);
      assert [a[0]] + a[1..] == a;
    }
  }

  /** A separator-free last piece after a separator is split off as the last field. */
  lemma SplitBeforeLast(m: string, c: string, sep: char)
    requires sep !in c
    ensures Split(m + [sep] + c, sep) == Split(m, sep) + [c]
  {
    var parts := Split(m, sep);
    JoinAppend(parts, c, sep);
    SplitJoin(parts + [c], sep);
  }

  /** Two separator-free words joined by the separator split back into them. */
  lemma SplitTwoWords(w1: string, w2: string, sep: char)
    requires sep !in w1 && sep !in w2
    ensures Split(w1 + [sep] + w2, sep) == [w1, w2]
  {
    SplitBeforeLast(w1, w2, sep);
    SplitSeparatorFree(w1, sep);
  }

  /** Joining one more piece appends the separator and that piece. */
  lemma {:induction false} JoinAppend(parts: seq<string>, c: string, sep: char)
    requires |parts| >= 1
    ensures Join(parts + [c], sep) == Join(parts, sep) + [sep] + c
  {
    if |parts| == 1 {
      assert (parts + [c])[1..] == [c];
    } else {
      JoinAppend(parts[1..], c, sep);
      assert (parts + [c])[1..] == parts[1..] + [c];
    }
  }

  /** Splitting undoes joining pieces that do not contain the separator. */
  lemma {:induction false} SplitJoin(parts: seq<string>, sep: char)
    requires |parts| >= 1
    requires forall k :: 0 <= k < |parts| ==> sep !in parts[k]
    ensures Split(Join(parts, sep), sep) == parts
  {
    if |parts| == 1 {
      SplitSeparatorFree(parts[0], sep);
    } else {
      SplitJoin(parts[1..], sep);
      SplitAtSeparator(parts[0], Join(parts[1..], sep), sep);
      assert [parts[0]] + parts[1..] == parts;
    }
  }

  /** Joining a prefix of the pieces gives a prefix of the joined string. */
  lemma {:induction false} JoinPrefix(parts: seq<string>, k: nat, sep: char)
    requires k <= |parts|
    ensures Join(parts[..k], sep) <= Join(parts, sep)
  {
    if k == 0 {
    } else if |parts| == 1 {
      assert parts[..k] == parts;
    } else if k == 1 {
      assert parts[..k] == [parts[0]];
    } else {
      JoinPrefix(parts[1..], k - 1, sep);
      assert parts[..k][1..] == parts[1..][..k - 1];
    }
  }

  // ---------------------------------------------------------------------
  // Digits: replace(/\D/g, '') and the parseInt acceptance test
  // ---------------------------------------------------------------------

  /** The regular-expression class `\d` (ASCII digits only, as without the `u` flag). */
  predicate IsDigit(c: char) {
    '0' <= c <= '9'
  }

  predicate AllDigits(s: string) {
    forall i :: 0 <= i < |s| ==> IsDigit(s[i])
  }

  predicate IsHexDigit(c: char) {
    IsDigit(c) || ('a' <= c <= 'f') || ('A' <= c <= 'F')
  }

  /** `s.replace(/\D/g, '')`: the digits of `s`, in order. */
  function DigitsOf(s: string): (r: string)
    ensures AllDigits(r)
    ensures Seqs.IsSubsequence(r, s)
    ensures forall c {:trigger multiset(r)[c]} :: IsDigit(c) ==> multiset(r)[c] == multiset(s)[c]
    ensures AllDigits(s) ==> r == s
    ensures r == "" <==> forall i :: 0 <= i < |s| ==> !IsDigit(s[i])
  {
    var r := Seqs.Filter(s, IsDigit);
    assert forall i :: 0 <= i < |r| ==> r[i] in r;
    assert forall i :: 0 <= i < |s| && IsDigit(s[i]) ==> s[i] in r;
    assert AllDigits(s) ==> r == s by {
      if AllDigits(s) {
        Seqs.FilterKeepsAll(s, IsDigit);
      }
    }
    r
  }

  /**
   * The contract of `DigitsOf` determines it: a string of digits taken from
   * `s` in order, keeping every digit occurrence, is `DigitsOf(s)`.
   */
  lemma DigitsOfUnique(r: string, s: string)
    requires AllDigits(r) && Seqs.IsSubsequence(r, s)
    requires forall c {:trigger multiset(r)[c]} :: IsDigit(c) ==> multiset(r)[c] == multiset(s)[c]
    ensures r == DigitsOf(s)
  {
    Seqs.FilterUnique(r, s, IsDigit);
  }

  /** Digits are extracted piecewise: the digits of a concatenation are the concatenated digits. */
  lemma DigitsOfAppend(a: string, b: string)
    ensures DigitsOf(a + b) == DigitsOf(a) + DigitsOf(b)
  {
    Seqs.FilterAppend(a, b, IsDigit);
  }

  /** A separator that is not a digit (a dash, a space, a parenthesis) leaves no trace. */
  lemma DigitsOfSkipsSeparator(a: string, c: char, b: string)
    requires !IsDigit(c)
    ensures DigitsOf(a + [c] + b) == DigitsOf(a + b)
  {
    DigitsOfAppend(a + [c], b);
    DigitsOfAppend(a, [c]);
    DigitsOfAppend(a, b);
    assert DigitsOf([c]) == "";
  }

  /**
   * `!isNaN(parseInt(s))` with no radix: after leading whitespace and one
   * optional sign, either a `0x`/`0X` prefix followed by a hexadecimal digit,
   * or (without that prefix) a decimal digit.
   */
  predicate ParsesAsInt(s: string) {
    var t := TrimStart(s);
    var u := if |t| > 0 && (t[0] == '+' || t[0] == '-') then t[1..] else t;
    if |u| >= 2 && u[0] == '0' && (u[1] == 'x' || u[1] == 'X') then
      |u| >= 3 && IsHexDigit(u[2])
    else
      |u| >= 1 && IsDigit(u[0])
  }

  // ---------------------------------------------------------------------
  // The default Array#sort order: code-unit lexicographic comparison
  // ---------------------------------------------------------------------

  /** `a` is at or before `b` in code-unit lexicographic order. */
  predicate CodeUnitLe(a: string, b: string)
    decreases |a|
  {
    if |a| == 0 then true
    else if |b| == 0 then false
    else if a[0] != b[0] then a[0] < b[0]
    else CodeUnitLe(a[1..], b[1..])
  }

  lemma {:induction false} CodeUnitLeTotal(a: string, b: string)
    ensures CodeUnitLe(a, b) || CodeUnitLe(b, a)
    decreases |a|
  {
    if |a| > 0 && |b| > 0 && a[0] == b[0] {
      CodeUnitLeTotal(a[1..], b[1..]);
    }
  }

  lemma {:induction false} CodeUnitLeTransitive(a: string, b: string, c: string)
    requires CodeUnitLe(a, b) && CodeUnitLe(b, c)
    ensures CodeUnitLe(a, c)
    decreases |a|
  {
    if |a| > 0 && a[0] == b[0] && b[0] == c[0] {
      CodeUnitLeTransitive(a[1..], b[1..], c[1..]);
    }
  }

  lemma {:induction false} CodeUnitLeAntisymmetric(a: string, b: string)
    requires CodeUnitLe(a, b) && CodeUnitLe(b, a)
    ensures a == b
    decreases |a|
  {
    if |a| > 0 {
      CodeUnitLeAntisymmetric(a[1..], b[1..]);
      assert a == [a[0]] + a[1..] && b == [b[0]] + b[1..];
    }
  }

  /** The code-unit order is a total preorder, so `Array#sort` can sort by it. */
  lemma CodeUnitLeIsTotalPreorder()
    ensures Seqs.TotalPreorder(CodeUnitLe)
  {
    forall a, b ensures CodeUnitLe(a, b) || CodeUnitLe(b, a) {
      CodeUnitLeTotal(a, b);
    }
    forall a, b, c | CodeUnitLe(a, b) && CodeUnitLe(b, c) ensures CodeUnitLe(a, c) {
      CodeUnitLeTransitive(a, b, c);
    }
  }
}

=== FILE: seqs.dfy ===
/**
 * Generic sequence operations behind the roster views: JavaScript's
 * `Array#filter`, the first-insertion order of a `Set`, and a stable sort
 * (`Array#sort` is stable since ECMAScript 2019), each with the properties
 * the views rely on.
 */
module Seqs {

  /** `a` is obtained from `b` by deleting elements, keeping the order of the rest. */
  predicate IsSubsequence<T(==)>(a: seq<T>, b: seq<T>)
    decreases |b|
  {
    if |a| == 0 then true
    else if |b| == 0 then false
    else (a[0] == b[0] && IsSubsequence(a[1..], b[1..])) || IsSubsequence(a, b[1..])
  }

  /** No element occurs twice. */
  predicate NoDuplicates<T(==)>(s: seq<T>) {
    forall i, j :: 0 <= i < j < |s| ==> s[i] != s[j]
  }

  /**
   * `Array#filter`: the elements satisfying `p`, in their original order and
   * with their original multiplicities.
   */
  function Filter<T(==,!new)>(s: seq<T>, p: T -> bool): (r: seq<T>)
    ensures |r| <= |s|
    ensures forall x {:trigger x in r} :: x in r <==> x in s && p(x)
    ensures forall x {:trigger multiset(r)[x]} ::
      multiset(r)[x] == if p(x) then multiset(s)[x] else 0
    ensures IsSubsequence(r, s)
  {
    if |s| == 0 then []
    else
      var rest := Filter(s[1..], p);
      assert s == [s[0]] + s[1..];
      if p(s[0]) then
        var r := [s[0]] + rest;
        assert r[1..] == rest;
        r
      else
        SubsequenceOfTail(rest, s);
        rest
  }

  lemma SubsequenceOfTail<T>(a: seq<T>, b: seq<T>)
    requires |b| > 0 && IsSubsequence(a, b[1..])
    ensures IsSubsequence(a, b)
  {
  }

  /** Filtering with a predicate every element satisfies changes nothing. */
  lemma {:induction false} FilterKeepsAll<T(!new)>(s: seq<T>, p: T -> bool)
    requires forall i :: 0 <= i < |s| ==> p(s[i])
    ensures Filter(s, p) == s
  {
    if |s| > 0 {
      FilterKeepsAll(s[1..], p);
    }
  }

  /** Filtering commutes with concatenation. */
  lemma {:induction false} FilterAppend<T(!new)>(a: seq<T>, b: seq<T>, p: T -> bool)
    ensures Filter(a + b, p) == Filter(a, p) + Filter(b, p)
  {
    if |a| == 0 {
      assert a + b == b;
    } else {
      assert (a + b)[1..] == a[1..] + b;
      FilterAppend(a[1..], b, p);
    }
  }

  /** Filtering by `p` and then by `q` is filtering once by their conjunction `pq`. */
  lemma {:induction false} FilterFilter<T(!new)>(s: seq<T>, p: T -> bool, q: T -> bool, pq: T -> bool)
    requires forall x :: pq(x) == (p(x) && q(x))
    ensures Filter(Filter(s, p), q) == Filter(s, pq)
  {
    if |s| > 0 {
      FilterFilter(s[1..], p, q, pq);
      assert s == [s[0]] + s[1..];
      if p(s[0]) {
        assert Filter(s, p)[1..] == Filter(s[1..], p);
      }
    }
  }

  /** Deleting elements never adds an occurrence. */
  lemma {:induction false} SubsequenceMultiset<T>(a: seq<T>, b: seq<T>)
    requires IsSubsequence(a, b)
    ensures multiset(a) <= multiset(b)
    decreases |b|
  {
    if |a| == 0 {
    } else if a[0] == b[0] && IsSubsequence(a[1..], b[1..]) {
      SubsequenceMultiset(a[1..], b[1..]);
      assert a == [a[0]] + a[1..] && b == [b[0]] + b[1..];
    } else {
      SubsequenceMultiset(a, b[1..]);
      assert b == [b[0]] + b[1..];
    }
  }

  /**
   * `Filter` is the only way to keep exactly the elements satisfying `p`:
   * a subsequence made of such elements that keeps every occurrence of them
   * is the filtered sequence.
   */
  lemma {:induction false} FilterUnique<T(!new)>(r: seq<T>, s: seq<T>, p: T -> bool)
    requires IsSubsequence(r, s)
    requires forall i :: 0 <= i < |r| ==> p(r[i])
    requires forall x {:trigger multiset(r)[x]} :: p(x) ==> multiset(r)[x] == multiset(s)[x]
    ensures r == Filter(s, p)
    decreases |s|
  {
    if |s| == 0 {
    } else {
      assert s == [s[0]] + s[1..];
      if |r| > 0 && r[0] == s[0] && IsSubsequence(r[1..], s[1..]) {
        assert r == [r[0]] + r[1..];
        forall x | p(x) ensures multiset(r[1..])[x] == multiset(s[1..])[x] {
          assert multiset(r)[x] == multiset(s)[x];
        }
        FilterUnique(r[1..], s[1..], p);
        assert p(r[0]);
      } else if |r| > 0 {
        assert IsSubsequence(r, s[1..]);
        SubsequenceMultiset(r, s[1..]);
        if p(s[0]) {
          assert false;
        }
        forall x | p(x) ensures multiset(r)[x] == multiset(s[1..])[x] {
          assert multiset(s)[x] == multiset(s[1..])[x];
        }
        FilterUnique(r, s[1..], p);
      } else {
        var f := Filter(s, p);
        assert forall x {:trigger multiset(f)[x]} :: multiset(f)[x] == 0;
        assert multiset(f) == multiset{};
      }
    }
  }

  /**
   * The elements of `s` in the order of their first occurrence, each once:
   * what `Array.from(new Set(s))` yields.
   */
  function Distinct<T(==,!new)>(s: seq<T>): (r: seq<T>)
    ensures forall x {:trigger x in r} :: x in r <==> x in s
    ensures forall i :: 0 <= i < |r| ==> r[i] in s
    ensures NoDuplicates(r)
    ensures |r| <= |s|
  {
    if |s| == 0 then []
    else
      var init := Distinct(s[..|s| - 1]);
      var last := s[|s| - 1];
      assert s == s[..|s| - 1] + [last];
      if last in init then init else init + [last]
  }

  /** The position of the first occurrence of `x` in `s`. */
  function FirstPos<T(==)>(s: seq<T>, x: T): (i: nat)
    requires x in s
    ensures i < |s| && s[i] == x
    ensures forall j :: 0 <= j < i ==> s[j] != x
  {
    if s[0] == x then 0
    else
      assert x in s[1..];
      1 + FirstPos(s[1..], x)
  }

  /** Appending after the first occurrence does not move it. */
  lemma FirstPosPrefix<T>(p: seq<T>, q: seq<T>, x: T)
    requires x in p
    ensures FirstPos(p + q, x) == FirstPos(p, x)
  {
    var k := FirstPos(p, x);
    assert (p + q)[k] == x;
    assert forall j :: 0 <= j < k ==> (p + q)[j] == p[j];
  }

  /**
   * `Distinct` lists the elements in the order of their first occurrence:
   * an element listed earlier first occurs earlier in the input.
   */
  lemma {:induction false} DistinctInOrder<T(!new)>(s: seq<T>)
    ensures forall i, j :: 0 <= i < j < |Distinct(s)| ==> FirstPos(s, Distinct(s)[i]) < FirstPos(s, Distinct(s)[j])
  {
    if |s| > 0 {
      var p, last := s[..|s| - 1], s[|s| - 1];
      assert s == p + [last];
      DistinctInOrder(p);
      var init := Distinct(p);
      var r := Distinct(s);
      forall i, j | 0 <= i < j < |r| ensures FirstPos(s, r[i]) < FirstPos(s, r[j]) {
        assert i < |init| && r[i] == init[i];
        if j < |init| {
          assert r[j] == init[j];
          DistinctStepKept(p, last, init[i], init[j]);
        } else {
          assert r[j] == last && last !in p;
          DistinctStepAdded(p, last, init[i]);
        }
      }
    }
  }

  /** Two elements of the prefix keep the order of their first occurrences. */
  lemma DistinctStepKept<T>(p: seq<T>, last: T, x: T, y: T)
    requires x in p && y in p && FirstPos(p, x) < FirstPos(p, y)
    ensures FirstPos(p + [last], x) < FirstPos(p + [last], y)
  {
    FirstPosPrefix(p, [last], x);
    FirstPosPrefix(p, [last], y);
  }

  /** A new last element first occurs after everything in the prefix. */
  lemma DistinctStepAdded<T>(p: seq<T>, last: T, x: T)
    requires x in p && last !in p
    ensures FirstPos(p + [last], x) < FirstPos(p + [last], last)
  {
    FirstPosPrefix(p, [last], x);
    assert forall j :: 0 <= j < |p| ==> (p + [last])[j] == p[j];
  }

  lemma {:induction false} NoDuplicatesCount<T>(s: seq<T>, x: T)
    requires NoDuplicates(s)
    ensures multiset(s)[x] <= 1
  {
    if |s| > 0 {
      assert s == [s[0]] + s[1..];
      assert NoDuplicates(s[1..]) by {
        forall i, j | 0 <= i < j < |s[1..]| ensures s[1..][i] != s[1..][j] {
          assert s[1..][i] == s[i + 1] && s[1..][j] == s[j + 1];
        }
      }
      NoDuplicatesCount(s[1..], x);
      if s[0] == x {
        assert x !in s[1..];
      }
    }
  }

  lemma RepeatedElementCount<T>(s: seq<T>, i: nat, j: nat)
    requires i < j < |s| && s[i] == s[j]
    ensures multiset(s)[s[i]] >= 2
  {
    assert s == s[..j] + s[j..];
    assert s[i] in s[..j];
    assert s[j] in s[j..];
  }

  /** Rearranging a duplicate-free sequence cannot introduce duplicates. */
  lemma PermutationKeepsDistinct<T>(a: seq<T>, b: seq<T>)
    requires multiset(a) == multiset(b) && NoDuplicates(a)
    ensures NoDuplicates(b)
  {
    forall i, j | 0 <= i < j < |b| ensures b[i] != b[j] {
      if b[i] == b[j] {
        RepeatedElementCount(b, i, j);
        NoDuplicatesCount(a, b[i]);
        assert false;
      }
    }
  }

  /** `le` is total and transitive (hence reflexive): a comparator a sort accepts. */
  ghost predicate TotalPreorder<K(!new)>(le: (K, K) -> bool) {
    && (forall x, y :: le(x, y) || le(y, x))
    && (forall x, y, z :: le(x, y) && le(y, z) ==> le(x, z))
  }

  /** Keys never decrease along `s`. */
  ghost predicate SortedBy<T, K>(s: seq<T>, key: T -> K, le: (K, K) -> bool) {
    forall i, j :: 0 <= i < j < |s| ==> le(key(s[i]), key(s[j]))
  }

  /** Places `x` before the first element whose key is not below it. */
  function Insert<T(==), K(!new)>(x: T, s: seq<T>, key: T -> K, le: (K, K) -> bool): (r: seq<T>)
    requires TotalPreorder(le)
    requires SortedBy(s, key, le)
    ensures multiset(r) == multiset(s) + multiset{x}
    ensures SortedBy(r, key, le)
  {
    if |s| == 0 || le(key(x), key(s[0])) then
      [x] + s
    else
      var rest := Insert(x, s[1..], key, le);
      assert s == [s[0]] + s[1..];
      InsertedAfterHead(x, s, rest, key, le);
      SortedCons(s[0], rest, key, le);
      [s[0]] + rest
  }

  /** A head at or below everything after it extends a sorted sequence. */
  lemma SortedCons<T, K>(h: T, rest: seq<T>, key: T -> K, le: (K, K) -> bool)
    requires SortedBy(rest, key, le)
    requires forall j :: 0 <= j < |rest| ==> le(key(h), key(rest[j]))
    ensures SortedBy([h] + rest, key, le)
  {
    var r := [h] + rest;
    forall i, j | 0 <= i < j < |r| ensures le(key(r[i]), key(r[j])) {
      assert r[j] == rest[j - 1];
      if i > 0 {
        assert r[i] == rest[i - 1];
      }
    }
  }

  /** Everything that ends up after the head of `s` has a key at or above the head's. */
  lemma InsertedAfterHead<T, K(!new)>(x: T, s: seq<T>, rest: seq<T>, key: T -> K, le: (K, K) -> bool)
    requires TotalPreorder(le)
    requires SortedBy(s, key, le)
    requires |s| > 0 && !le(key(x), key(s[0]))
    requires multiset(rest) == multiset(s[1..]) + multiset{x}
    ensures forall j :: 0 <= j < |rest| ==> le(key(s[0]), key(rest[j]))
  {
    forall j | 0 <= j < |rest| ensures le(key(s[0]), key(rest[j])) {
      assert rest[j] in multiset(rest);
      if rest[j] != x {
        assert rest[j] in s[1..];
        var i :| 0 <= i < |s[1..]| && s[1..][i] == rest[j];
        assert s[i + 1] == rest[j];
      }
    }
  }

  /**
   * Insertion sort by key. Each element is inserted before the equal-keyed
   * elements that came after it, so the sort is stable.
   */
  function SortBy<T(==), K(!new)>(s: seq<T>, key: T -> K, le: (K, K) -> bool): (r: seq<T>)
    requires TotalPreorder(le)
    ensures multiset(r) == multiset(s)
    ensures SortedBy(r, key, le)
  {
    if |s| == 0 then []
    else
      assert s == [s[0]] + s[1..];
      Insert(s[0], SortBy(s[1..], key, le), key, le)
  }

  /**
   * `Insert` keeps the elements of one key class `k` (those whose keys are
   * equivalent to `k`, picked out by `p`) in order, with `x` ahead of the
   * ones already there.
   */
  lemma {:induction false} InsertFilter<T(!new), K(!new)>(x: T, t: seq<T>, key: T -> K, le: (K, K) -> bool, k: K, p: T -> bool)
    requires TotalPreorder(le)
    requires SortedBy(t, key, le)
    requires forall y :: p(y) == (le(key(y), k) && le(k, key(y)))
    ensures Filter(Insert(x, t, key, le), p) == (if p(x) then [x] else []) + Filter(t, p)
    decreases |t|
  {
    if |t| == 0 || le(key(x), key(t[0])) {
      FilterCons(x, t, p);
    } else {
      var rest := Insert(x, t[1..], key, le);
      InsertFilter(x, t[1..], key, le, k, p);
      FilterCons(t[0], rest, p);
      FilterCons(t[0], t[1..], p);
      assert t == [t[0]] + t[1..];
      SameClassOrdered(x, t[0], key, le, k, p);
    }
  }

  /** Filtering a sequence with a given head. */
  lemma FilterCons<T(!new)>(x: T, t: seq<T>, p: T -> bool)
    ensures Filter([x] + t, p) == (if p(x) then [x] else []) + Filter(t, p)
  {
    assert ([x] + t)[1..] == t;
  }

  /** Two elements of one key class are each at or below the other. */
  lemma SameClassOrdered<T, K(!new)>(a: T, b: T, key: T -> K, le: (K, K) -> bool, k: K, p: T -> bool)
    requires TotalPreorder(le)
    requires forall y :: p(y) == (le(key(y), k) && le(k, key(y)))
    ensures p(a) && p(b) ==> le(key(a), key(b))
  {
  }

  /**
   * The sort is stable: within every key class, the sorted sequence lists the
   * elements in the order the input did.
   */
  lemma {:induction false} SortByStable<T(!new), K(!new)>(s: seq<T>, key: T -> K, le: (K, K) -> bool, k: K, p: T -> bool)
    requires TotalPreorder(le)
    requires forall y :: p(y) == (le(key(y), k) && le(k, key(y)))
    ensures Filter(SortBy(s, key, le), p) == Filter(s, p)
    decreases |s|
  {
    if |s| > 0 {
      SortByStable(s[1..], key, le, k, p);
      InsertFilter(s[0], SortBy(s[1..], key, le), key, le, k, p);
      assert s == [s[0]] + s[1..];
    }
  }

  /** Sorting two elements whose keys are out of order swaps them. */
  lemma SortedPair<T, K>(r: seq<T>, a: T, b: T, key: T -> K, le: (K, K) -> bool)
    requires multiset(r) == multiset{a, b}
    requires SortedBy(r, key, le)
    requires !le(key(a), key(b))
    ensures r == [b, a]
  {
    assert |r| == |multiset(r)| == 2;
    assert r == [r[0], r[1]];
    assert multiset(r) == multiset{r[0], r[1]};
    assert r[0] == b && r[1] == a;
  }
}

=== FILE: studentdetail.dfy ===
/**
 * The contact card: looking a student up by the id in the route, and the
 * number the WhatsApp button dials (`https://wa.me/<number>`).
 */
module StudentDetail {
  import opened Wrappers
  import opened Types
  import JsString

  // ---------------------------------------------------------------------
  // Lookup by id
  // ---------------------------------------------------------------------

  /** Some student in the roster carries `id`. */
  predicate HasId(students: seq<Student>, id: string) {
    exists i :: 0 <= i < |students| && students[i].id == id
  }

  /**
   * `students.find(s => s.id === id)`: the first student with that id, or
   * nothing (the card then keeps showing its loading line). Ids are not
   * unique in general, so later students with the same id are unreachable.
   */
  method FindStudent(students: seq<Student>, id: string) returns (found: Option<Student>)
    ensures found.None? <==> !HasId(students, id)
    ensures found.Some? ==>
      exists i :: 0 <= i < |students| && students[i] == found.value
        && found.value.id == id
        && forall j :: 0 <= j < i ==> students[j].id != id
  {
    var k := 0;
    while k < |students|
      invariant 0 <= k <= |students|
      invariant forall j :: 0 <= j < k ==> students[j].id != id
    {
      if students[k].id == id {
        return Some(students[k]);
      }
      k := k + 1;
    }
    return None;
  }

  /** With unique ids the card shows exactly the student whose id is in the route. */
  method FindUnique(students: seq<Student>, s: Student) returns (found: Option<Student>)
    requires s in students
    requires forall i, j :: 0 <= i < j < |students| ==> students[i].id != students[j].id
    ensures found == Some(s)
  {
    found := FindStudent(students, s.id);
    var i :| 0 <= i < |students| && students[i] == s;
    assert HasId(students, s.id);
  }

  // ---------------------------------------------------------------------
  // The WhatsApp number
  // ---------------------------------------------------------------------

  /** Israel's international calling code, replacing a trunk prefix `0`. */
  const CountryCode: string := "972"

  /**
   * `handleWhatsApp`: keep only the digits of the stored phone number; if
   * they start with the trunk prefix `0`, drop it and put the country code
   * in front.
   */
  function WhatsAppNumber(phone: string): (r: string)
    ensures JsString.AllDigits(r)
    ensures |r| > 0 ==> r[0] != '0'
    ensures r == "" <==> forall i :: 0 <= i < |phone| ==> !JsString.IsDigit(phone[i])
    ensures var d := JsString.DigitsOf(phone);
      && |r| == |d| + (if |d| > 0 && d[0] == '0' then 2 else 0)
      && (|d| > 0 ==> r[|r| - (|d| - 1)..] == d[1..])
  {
    var d := JsString.DigitsOf(phone);
    if |d| > 0 && d[0] == '0' then CountryCode + d[1..] else d
  }

  /** A local number `0…` becomes `972…` without the zero. */
  lemma LocalNumber(rest: string)
    requires JsString.AllDigits(rest)
    ensures WhatsAppNumber("0" + rest) == CountryCode + rest
  {
    assert JsString.AllDigits("0" + rest);
    assert ("0" + rest)[1..] == rest;
  }

  /** A number already in international form (digits, no leading zero) is dialled as is. */
  lemma InternationalNumberUnchanged(n: string)
    requires JsString.AllDigits(n) && (|n| > 0 ==> n[0] != '0')
    ensures WhatsAppNumber(n) == n
  {
  }

  /** Only the digits matter: the number dialled is that of the bare digit string. */
  lemma WhatsAppUsesDigitsOnly(phone: string)
    ensures WhatsAppNumber(phone) == WhatsAppNumber(JsString.DigitsOf(phone))
  {
  }

  /** Normalising twice is normalising once. */
  lemma WhatsAppNumberIdempotent(phone: string)
    ensures WhatsAppNumber(WhatsAppNumber(phone)) == WhatsAppNumber(phone)
  {
    InternationalNumberUnchanged(WhatsAppNumber(phone));
  }

  /** How the number is written does not matter: a dash, space or bracket anywhere is ignored. */
  lemma WhatsAppIgnoresSeparator(a: string, c: char, b: string)
    requires !JsString.IsDigit(c)
    ensures WhatsAppNumber(a + [c] + b) == WhatsAppNumber(a + b)
  {
    JsString.DigitsOfSkipsSeparator(a, c, b);
  }
}

=== FILE: studentlist.dfy ===
/**
 * The roster list view: the Hebrew date line in its header, the class
 * chips, the search/class filter and the birthday badge on each row.
 * The current Hebrew day, month name and year come from the platform's
 * calendar conversion and are parameters here.
 */
module StudentList {
  import opened Wrappers
  import opened Types
  import Seqs
  import JsString
  import Decimal
  import HebrewNumerals

  // ---------------------------------------------------------------------
  // Day and year numerals
  // ---------------------------------------------------------------------

  /** The literal day table; entry 0 is the empty string. */
  const DayTable: seq<string> := ["", "א׳", "ב׳", "ג׳", "ד׳", "ה׳", "ו׳", "ז׳", "ח׳", "ט׳", "י׳", "י״א", "י״ב", "י״ג", "י״ד", "ט״ו", "ט״ז", "י״ז", "י״ח", "י״ט", "כ׳", "כ״א", "כ״ב", "כ״ג", "כ״ד", "כ״ה", "כ״ו", "כ״ז", "כ״ח", "כ״ט", "ל׳"]

  /** The literal year table. */
  const YearTable: map<int, string> := map[5784 := "תשפ״ד", 5785 := "תשפ״ה", 5786 := "תשפ״ו", 5787 := "תשפ״ז"]

  lemma UnitDayEntries(d: int)
    requires 1 <= d <= 9
    ensures DayTable[d] == [HebrewNumerals.UnitLetters[d - 1], HebrewNumerals.Geresh]
  {
    assert d == 1 || d == 2 || d == 3 || d == 4 || d == 5 || d == 6 || d == 7 || d == 8 || d == 9;
  }

  lemma TensDayEntries(t: int)
    requires 1 <= t <= 3
    ensures DayTable[10 * t] == [HebrewNumerals.TensLetters[t - 1], HebrewNumerals.Geresh]
  {
    assert t == 1 || t == 2 || t == 3;
  }

  lemma TwoLetterDayEntries(d: int)
    requires 10 < d < 30 && d % 10 != 0 && d != 15 && d != 16
    ensures DayTable[d] == [HebrewNumerals.TensLetters[d / 10 - 1], HebrewNumerals.Gershayim, HebrewNumerals.UnitLetters[d % 10 - 1]]
  {
    assert || d == 11 || d == 12 || d == 13 || d == 14 || d == 17 || d == 18 || d == 19
           || d == 21 || d == 22 || d == 23 || d == 24 || d == 25 || d == 26 || d == 27 || d == 28 || d == 29;
  }

  /** Every day entry 1..30 is the traditional numeral of its index. */
  lemma DayTableIsGematria(d: int)
    requires 1 <= d <= 30
    ensures DayTable[d] == HebrewNumerals.Numeral(d)
  {
    if d <= 9 {
      HebrewNumerals.UnitsNumeral(d);
      UnitDayEntries(d);
    } else if d % 10 == 0 {
      HebrewNumerals.TensNumeral(d / 10);
      TensDayEntries(d / 10);
    } else if d == 15 || d == 16 {
      HebrewNumerals.FifteenAndSixteen();
    } else {
      HebrewNumerals.TwoLetterNumeral(d);
      TwoLetterDayEntries(d);
    }
  }

  /** The whole day table, entry by entry. */
  lemma DayTableAllGematria()
    ensures forall d :: 1 <= d <= 30 ==> DayTable[d] == HebrewNumerals.Numeral(d)
  {
    forall d | 1 <= d <= 30 ensures DayTable[d] == HebrewNumerals.Numeral(d) {
      DayTableIsGematria(d);
    }
  }

  /** Every year entry is the traditional (minor-count) numeral of its key. */
  lemma YearTableIsGematria(y: int)
    requires y in YearTable
    ensures YearTable[y] == HebrewNumerals.Numeral(y)
  {
    HebrewNumerals.YearNumeral(y - 5780);
  }

  /** The table holds exactly the years 5784 to 5787, none with an empty entry. */
  lemma YearTableKeys(y: int)
    ensures y in YearTable <==> 5784 <= y <= 5787
    ensures y in YearTable ==> YearTable[y] != ""
  {
  }

  /**
   * `getHebrewDayGematria`: `units[day] || day.toString()`. Days 1 to 30 get
   * their numeral; entry 0 is empty and so falsy, and 0, like every index
   * outside the table, falls back to the decimal rendering.
   */
  function DayGematria(day: int): (r: string)
    ensures !(1 <= day <= 30) ==> Decimal.Canonical(r) && Decimal.ParseInteger(r) == Some(day)
    ensures r != "" && ' ' !in r
  {
    DayTableAllGematria();
    if 0 <= day < |DayTable| && DayTable[day] != "" then
      DayTable[day]
    else
      Decimal.IntToString(day)
  }

  /** Every day of a month, 1 to 30, is written as its Hebrew numeral. */
  lemma DayGematriaIsNumeral(day: int)
    requires 1 <= day <= 30
    ensures DayGematria(day) == HebrewNumerals.Numeral(day)
  {
    DayTableIsGematria(day);
  }

  /** Single-letter days carry a geresh: the 1st, 10th and 30th. */
  lemma DayGematriaExamples()
    ensures DayGematria(1) == "א׳"
    ensures DayGematria(10) == "י׳"
    ensures DayGematria(30) == "ל׳"
  {
    TabledDay(1);
    TabledDay(10);
    TabledDay(30);
  }

  /** The 15th and 16th avoid spelling a divine name: tet-vav and tet-zayin. */
  lemma DayGematriaIrregular()
    ensures DayGematria(15) == "ט״ו"
    ensures DayGematria(16) == "ט״ז"
  {
    TabledDay(15);
    TabledDay(16);
  }

  /** Outside 1 to 30 a day is printed exactly as `day.toString()` would print it. */
  lemma DayGematriaFallback(day: int)
    requires !(1 <= day <= 30)
    ensures DayGematria(day) == Decimal.IntToString(day)
  {
    Decimal.CanonicalUnique(DayGematria(day), day);
  }

  lemma TabledDay(d: int)
    requires 0 <= d < |DayTable| && DayTable[d] != ""
    ensures DayGematria(d) == DayTable[d]
  {
  }

  /** Day 0 has an empty, hence falsy, entry and prints as "0", like days outside the table. */
  lemma DayGematriaFallbackExamples()
    ensures DayGematria(0) == "0"
    ensures DayGematria(31) == "31"
  {
    assert DayTable[0] == "";
    assert Decimal.IntToString(31) == "31" by {
      assert Decimal.NatToString(3) == "3";
    }
  }

  /** `getHebrewYearGematria`: `years[year] || year.toString()`. */
  function YearGematria(year: int): (r: string)
    ensures !(5784 <= year <= 5787) ==> Decimal.Canonical(r) && Decimal.ParseInteger(r) == Some(year)
    ensures r != "" && ' ' !in r
  {
    YearTableKeys(year);
    if year in YearTable && YearTable[year] != "" then
      YearTableIsGematria(year);
      YearTable[year]
    else
      Decimal.IntToString(year)
  }

  /** Outside 5784 to 5787 a year is printed exactly as `year.toString()` would print it. */
  lemma YearGematriaFallback(year: int)
    requires !(5784 <= year <= 5787)
    ensures YearGematria(year) == Decimal.IntToString(year)
  {
    Decimal.CanonicalUnique(YearGematria(year), year);
  }

  /** Each year the table covers, 5784 to 5787, is written as its Hebrew numeral without the thousands. */
  lemma YearGematriaIsNumeral(year: int)
    requires 5784 <= year <= 5787
    ensures YearGematria(year) == HebrewNumerals.Numeral(year)
  {
    YearTableKeys(year);
    YearTableIsGematria(year);
  }

  /** The four table years, spelled out. */
  lemma YearGematriaValues()
    ensures YearGematria(5784) == "תשפ״ד"
    ensures YearGematria(5785) == "תשפ״ה"
    ensures YearGematria(5786) == "תשפ״ו"
    ensures YearGematria(5787) == "תשפ״ז"
  {
    TabledYear(5784);
    TabledYear(5785);
    TabledYear(5786);
    TabledYear(5787);
  }

  lemma TabledYear(y: int)
    requires y in YearTable
    ensures YearGematria(y) == YearTable[y]
  {
    YearTableKeys(y);
  }

  // ---------------------------------------------------------------------
  // The month name and the date line
  // ---------------------------------------------------------------------

  /** The preposition bet ("in") that the platform prefixes to a month name in running text. */
  const Bet: char := 'ב'

  /**
   * `m.startsWith('ב') ? m.substring(1) : m`: one leading bet removed, if
   * there is one.
   */
  function StripMonthPrefix(month: string): (r: string)
    ensures |month| > 0 && month[0] == Bet ==> [Bet] + r == month
    ensures !(|month| > 0 && month[0] == Bet) ==> r == month
    ensures r == month[|month| - |r|..] && |month| - |r| <= 1
  {
    if |month| > 0 && month[0] == Bet then month[1..] else month
  }

  /** Stripping undoes prefixing the preposition, and removes only that one letter. */
  lemma StripMonthPrefixInverse(name: string)
    ensures StripMonthPrefix([Bet] + name) == name
  {
    assert ([Bet] + name)[1..] == name;
  }

  /**
   * The header line: `${gematriaDay} ${cleanMonth} ${gematriaYear}`. Splitting
   * it on spaces gives the day numeral, the fields of the cleaned month name
   * (two for the leap-year months `אדר א׳` and `אדר ב׳`), and the year numeral.
   */
  function HebrewDateLabel(day: int, month: string, year: int): (r: string)
    ensures JsString.Split(r, ' ') == [DayGematria(day)] + JsString.Split(StripMonthPrefix(month), ' ') + [YearGematria(year)]
  {
    var r := DayGematria(day) + " " + StripMonthPrefix(month) + " " + YearGematria(year);
    ThreeFields(DayGematria(day), StripMonthPrefix(month), YearGematria(year));
    r
  }

  /** Space-free outer fields joined to a middle text by single spaces split off around it. */
  lemma ThreeFields(a: string, m: string, c: string)
    requires ' ' !in a && ' ' !in c
    ensures JsString.Split(a + " " + m + " " + c, ' ') == [a] + JsString.Split(m, ' ') + [c]
  {
    assert a + " " + m + " " + c == a + [' '] + (m + [' '] + c);
    JsString.SplitAtSeparator(a, m + [' '] + c, ' ');
    JsString.SplitBeforeLast(m, c, ' ');
  }

  /** A two-word month name, such as the leap-year `אדר ב׳`, gives four fields. */
  lemma TwoWordMonthLabel(day: int, month: string, w1: string, w2: string, year: int)
    requires StripMonthPrefix(month) == w1 + " " + w2 && ' ' !in w1 && ' ' !in w2
    ensures JsString.Split(HebrewDateLabel(day, month, year), ' ') == [DayGematria(day), w1, w2, YearGematria(year)]
  {
    JsString.SplitTwoWords(w1, w2, ' ');
    assert w1 + " " + w2 == w1 + [' '] + w2;
    var d, y := DayGematria(day), YearGematria(year);
    assert JsString.Split(StripMonthPrefix(month), ' ') == [w1, w2];
    assert JsString.Split(HebrewDateLabel(day, month, year), ' ') == [d] + [w1, w2] + [y];
    Surround(d, w1, w2, y);
  }

  /** In the second Adar of a leap year the header line has four fields. */
  lemma AdarIILabel(day: int, year: int)
    ensures JsString.Split(HebrewDateLabel(day, "באדר ב׳", year), ' ') == [DayGematria(day), "אדר", "ב׳", YearGematria(year)]
  {
    AdarIIMonth();
    TwoWordMonthLabel(day, "באדר ב׳", "אדר", "ב׳", year);
  }

  lemma Surround(d: string, w1: string, w2: string, y: string)
    ensures [d] + [w1, w2] + [y] == [d, w1, w2, y]
  {
  }

  /** "באדר ב׳" (in the second Adar) is cleaned to the two words `אדר` and `ב׳`. */
  lemma AdarIIMonth()
    ensures StripMonthPrefix("באדר ב׳") == "אדר" + " " + "ב׳"
    ensures ' ' !in "אדר" && ' ' !in "ב׳"
  {
    assert "באדר ב׳"[1..] == "אדר ב׳";
  }

  // ---------------------------------------------------------------------
  // Class chips
  // ---------------------------------------------------------------------

  /** The chip that selects every class. */
  const AllClasses: string := "all"

  /** `students.map(s => s.class)`. */
  function ClassNames(students: seq<Student>): (r: seq<string>)
    ensures |r| == |students|
    ensures forall i :: 0 <= i < |r| ==> r[i] == students[i].className
  {
    seq(|students|, i requires 0 <= i < |students| => students[i].className)
  }

  predicate NonEmpty(s: string) {
    s != ""
  }

  /** Some student has the (non-empty) class `c`. */
  ghost predicate IsClassOf(students: seq<Student>, c: string) {
    c != "" && exists i :: 0 <= i < |students| && students[i].className == c
  }

  /**
   * `['all', ...Array.from(new Set(classes.filter(Boolean))).sort()]`: the
   * chip list is "all" followed by each non-empty class exactly once, in
   * strictly increasing code-unit order.
   */
  function Classes(students: seq<Student>): (r: seq<string>)
    ensures |r| >= 1 && r[0] == AllClasses
    ensures forall c {:trigger c in r[1..]} :: c in r[1..] <==> IsClassOf(students, c)
    ensures forall i, j :: 1 <= i < j < |r| ==> JsString.CodeUnitLe(r[i], r[j]) && r[i] != r[j]
  {
    var unique := Seqs.Distinct(Seqs.Filter(ClassNames(students), NonEmpty));
    JsString.CodeUnitLeIsTotalPreorder();
    var sorted := Seqs.SortBy(unique, (c: string) => c, JsString.CodeUnitLe);
    ClassesProperties(students, unique, sorted);
    [AllClasses] + sorted
  }

  lemma ClassesProperties(students: seq<Student>, unique: seq<string>, sorted: seq<string>)
    requires unique == Seqs.Distinct(Seqs.Filter(ClassNames(students), NonEmpty))
    requires multiset(sorted) == multiset(unique)
    requires Seqs.SortedBy(sorted, (c: string) => c, JsString.CodeUnitLe)
    ensures forall c {:trigger c in sorted} :: c in sorted <==> IsClassOf(students, c)
    ensures forall i, j :: 0 <= i < j < |sorted| ==> JsString.CodeUnitLe(sorted[i], sorted[j]) && sorted[i] != sorted[j]
  {
    var names := ClassNames(students);
    Seqs.PermutationKeepsDistinct(unique, sorted);
    forall c ensures c in sorted <==> IsClassOf(students, c) {
      assert c in sorted <==> c in multiset(unique);
      assert c in unique <==> c in names && NonEmpty(c);
      if IsClassOf(students, c) {
        var i :| 0 <= i < |students| && students[i].className == c;
        assert names[i] == c;
      }
      if c in names {
        var i :| 0 <= i < |names| && names[i] == c;
        assert students[i].className == c;
      }
    }
  }

  // ---------------------------------------------------------------------
  // Search and class filter
  // ---------------------------------------------------------------------

  /** The lowered name contains the lowered query, or the phone contains the raw query. */
  predicate MatchesSearch(s: Student, query: string) {
    || JsString.Contains(JsString.ToLower(s.fullName), JsString.ToLower(query))
    || JsString.Contains(s.phoneNumber, query)
  }

  predicate MatchesClass(s: Student, selected: string) {
    selected == AllClasses || s.className == selected
  }

  predicate IsListed(s: Student, query: string, selected: string) {
    MatchesSearch(s, query) && MatchesClass(s, selected)
  }

  /**
   * `filteredStudents`: the students passing both the search and the class
   * test, in roster order, each as often as in the roster.
   */
  function FilterStudents(students: seq<Student>, query: string, selected: string): (r: seq<Student>)
    ensures Seqs.IsSubsequence(r, students)
    ensures forall s {:trigger s in r} :: s in r <==> s in students && IsListed(s, query, selected)
    ensures forall s {:trigger multiset(r)[s]} ::
      multiset(r)[s] == if IsListed(s, query, selected) then multiset(students)[s] else 0
  {
    Seqs.Filter(students, s => IsListed(s, query, selected))
  }

  /** With no query and the "all" chip, the whole roster is listed. */
  lemma EmptyQueryListsEveryone(students: seq<Student>)
    ensures FilterStudents(students, "", AllClasses) == students
  {
    forall i | 0 <= i < |students| ensures IsListed(students[i], "", AllClasses) {
      assert "" <= JsString.ToLower(students[i].fullName);
    }
    Seqs.FilterKeepsAll(students, s => IsListed(s, "", AllClasses));
  }

  /** Choosing a class chip narrows the "all" listing to that class, order kept. */
  lemma ClassChipNarrows(students: seq<Student>, query: string, selected: string)
    requires selected != AllClasses
    ensures FilterStudents(students, query, selected)
         == Seqs.Filter(FilterStudents(students, query, AllClasses), (s: Student) => s.className == selected)
  {
    Seqs.FilterFilter(students, s => IsListed(s, query, AllClasses), (s: Student) => s.className == selected,
                      s => IsListed(s, query, selected));
  }

  // ---------------------------------------------------------------------
  // Birthday badge
  // ---------------------------------------------------------------------

  /**
   * `student.birthday_hebrew && student.birthday_hebrew.includes(month)`:
   * the birthday is present, non-empty and mentions the month name.
   */
  function HasBirthdayIn(s: Student, month: string): (b: bool)
    ensures b <==> && s.birthdayHebrew.Some?
                   && s.birthdayHebrew.value != ""
                   && exists i :: JsString.OccursAt(s.birthdayHebrew.value, month, i)
  {
    match s.birthdayHebrew
    case None => false
    case Some(text) => text != "" && JsString.Contains(text, month)
  }
}

=== FILE: types.dfy ===
/** The record the views share: one roster entry as the data service builds it. */
module Types {
  import opened Wrappers

  /**
   * A person in the directory. `birthdayHebrew` is free text such as
   * "ט״ו שבט תשס״ה"; the views treat a missing and an empty birthday alike.
   */
  datatype Student = Student(
    id: string,
    fullName: string,
    phoneNumber: string,
    imageUrl: string,
    className: string,
    notes: string,
    birthdayHebrew: Option<string>)
}

=== FILE: wrappers.dfy ===
/** An optional value: the model's stand-in for JavaScript's `undefined`/`null`. */
module Wrappers {

  datatype Option<+T> = None | Some(value: T) {

    /** The wrapped value, or `default` when there is none. */
    function GetOr(default: T): T {
      match this
      case Some(v) => v
      case None => default
    }
  }
}
